=== FILE: README.md ===
# Magnus task server and home page, modelled in Dafny

Magnus runs an agent on a prompt and streams what the agent does to the
browser. This project models the parts of the system that hold its logic:

- **Task registry** (`Tasks`, tasks.dfy). `TaskManager` in app.py is a map of
  tasks plus a map of per-task event queues. `create_task`,
  `update_task_step`, `complete_task` and `fail_task` are modelled as pure
  transitions over an immutable `Manager`. The Python dictionaries'
  insertion order is kept as a sequence, so that the stable newest-first
  sort behind `GET /tasks` can be stated exactly. `GET /tasks/{id}` is
  modelled too.
- **Log handler** (`LogHandler`, loghandler.dfy). `SSELogHandler.__call__`
  does five things:
  - it strips the anchored loguru timestamp prefix and the module prefix;
  - it classifies the line as `think`, `tool`, `act`, `error` or `log`;
  - it narrows think and act lines to their content;
  - it numbers steps from a counter;
  - it turns structured records into steps.

  The two prefix patterns and the thought pattern are modelled by greedy
  scanners. Each scanner is proved to agree with a reference predicate that
  describes the matches. The fourth pattern, `Result: (.*)` with DOTALL, is a
  split at the first `Result: `.
  The lines logged by the simulated run in main.py serve as worked examples.
- **Line buffer** (`LineBuffer`, linebuffer.dfy). `OutputInterceptor.write`
  keeps the partial last line and forwards every complete non-blank line.
- **Event stream** (`EventStream`, eventstream.dfy). `GET /tasks/{id}/events`
  is modelled as a function from the task state and a sequence of generator
  turns to the frames it yields. Each turn is one of: an event is ready,
  five idle seconds pass, or the client goes away. A reader is modelled after
  the event-stream interpretation in section 9.2.6 of the WHATWG HTML Living
  Standard. When no encoding and no event type holds a line feed, reading
  the stream back through it gives the status snapshot, then exactly the
  events the generator took from the queue, in order.
- **Task run** (`Runner`, runner.dfy). `run_task` is modelled as a fold:
  - mark the task running;
  - log the start notice as step 0;
  - feed the agent flow's log messages to the handler;
  - finish with the flow's outcome.

  The outcome is a parameter: a result, the one-hour timeout, an
  exception, or a failure to register the log handler before the flow
  starts.
- **Home page** (`HomePage`, homepage.dfy). The rules of
  frontend/app/page.tsx are modelled:
  - the blank-prompt guard;
  - the checks on the create response;
  - navigation to the new task's page;
  - the Enter key and the textarea height;
  - the cut to five recent tasks;
  - the status badge.

  Browser calls are replaced by their results.
- **Async logger registry** (`AsyncLogger`, asynclogger.dfy). The handler list
  of app/logger.py, its side map of loguru ids, and the notification loop.

`Text` (text.dfy) holds the string helpers the models share. It covers
Python's `str.split`/`str.join` (with both round trips), `strip` for
Python and JavaScript whitespace, substring search, and a lower-case map.
`Wrappers` (wrappers.dfy) holds `Option` and `Result`.

JSON encoding is a parameter `encode: Event -> string`. The stream
round trip assumes that no encoding contains a line feed, which `json.dumps`
guarantees because it escapes control characters.

## Model

| member | source | states |
|---|---|---|
| Tasks.Empty | app.py:41-44 | A new manager has no tasks and satisfies the manager invariant. |
| Tasks.CreateTask | app.py:46-56 | The new task is pending, has no steps and an empty queue, and is registered in both maps. Every other task and queue is unchanged. The invariant is kept, and a fresh id adds exactly one task. |
| Tasks.StartTask | app.py:123 | The task's status becomes "running" and no event is queued. An unknown id changes nothing. |
| Tasks.UpdateTaskStep | app.py:58-71 | An unknown id changes nothing. A known id gains exactly one step, and exactly two events are queued: the step event, then a status snapshot ending in that step. The status is unchanged. |
| Tasks.CompleteTask | app.py:73-82 | The status becomes "completed". A "completed" status event is queued, then the end marker. An unknown id changes nothing. |
| Tasks.FailTask | app.py:84-90 | The status becomes "failed: " plus the error. Exactly one error event is queued. An unknown id changes nothing. |
| Tasks.GetTask | app.py:363-367 | Returns the stored task exactly when the id is known, and 404 otherwise. |
| Tasks.GetAfterCreate | app.py:46-56 | After `create_task`, `GET /tasks/{id}` returns the new task: pending, with the given prompt and time and no steps. Every other id answers as before. |
| Tasks.GetAfterUpdate | app.py:58-71 | After `update_task_step`, the task read back has the new step last, after the earlier ones, and the same status. Every other id answers as before. |
| Tasks.GetAfterFinish | app.py:73-90 | After `complete_task` the task reads back as "completed". After `fail_task` it reads back as "failed: " plus the error. Its steps are unchanged in both cases. |
| Tasks.CreateKeepsQueuesWellFormed | app.py:46-56 | Creating a task keeps every queue well formed. |
| Tasks.UpdateKeepsQueuesWellFormed | app.py:58-71 | After a step, every step event in a queue is followed by a status whose last step is that step. |
| Tasks.CompleteKeepsQueuesWellFormed | app.py:73-82 | `complete_task` keeps every queue well formed: in the queue it writes, the end marker comes right after a "completed" status event. |
| Tasks.FailKeepsQueuesWellFormed | app.py:84-90 | Failing a task keeps every queue well formed. |
| Tasks.FailNeverCompletes | app.py:84-90 | Failing a task whose queue holds no end marker queues the error event last and still leaves no end marker. |
| Tasks.SortNewestFirst | app.py:353-357 | The sort is a permutation of its input, and its result is ordered newest first. |
| Tasks.SortIsStable | app.py:353-357 | Tasks created at the same instant keep their relative order. |
| Tasks.ListTasksSpec | app.py:351-361 | `get_tasks` lists every registered task exactly once, newest first, with ties in insertion order. |
| LogHandler.MatchStampExact | app.py:141-142 | The timestamp scanner finds a prefix exactly when the pattern matches one, and then it finds that prefix. |
| LogHandler.MatchModuleExact | app.py:145-146 | The module scanner finds a prefix exactly when the pattern matches one, and then it finds that prefix. |
| LogHandler.StripStamp | app.py:141-142 | A line that starts with a timestamp prefix loses exactly that prefix. Otherwise the line is kept unchanged, and only a timestamp prefix is ever removed. |
| LogHandler.StripModule | app.py:145-146 | A line that starts with a module prefix loses exactly that prefix. Otherwise the line is kept unchanged, and only a module prefix is ever removed. |
| LogHandler.CleanFormatted | app.py:140-146 | For any timestamp (with any level) and any module tag, `timestamp + tag + message` cleans to the message. |
| LogHandler.FormattedAgreesWithBare | app.py:140-166 | For a message that does not itself start with a prefix, the formatted line gets the same kind and the same content as the bare message. |
| LogHandler.CleanOnlyAtStart | app.py:140-146 | A line with neither prefix at its very start is left exactly as it is. |
| LogHandler.ClassifyIsPriorityChain | app.py:148-166 | The kind is the first marker test that holds, in the order think, tool, act, error, then log. |
| LogHandler.ExtractThoughtSpec | app.py:151-154 | A think line becomes the text after the leftmost thought match, up to the end of that line. Without a match it is unchanged. |
| LogHandler.ExtractResult | app.py:161-164 | An act line becomes everything after its first `Result: `, line feeds included. Without one it is unchanged. |
| LogHandler.NameIsNotComplete | app.py:137-166 | No log line is ever given the step type "complete". |
| LogHandler.Handle | app.py:131-179 | A string line is numbered one past the counter. A record uses its own step, or else the counter before the increment, with defaults "" and "log". Any other value is ignored. Every handled message moves the counter by one. |
| LogHandler.LinesNumberedConsecutively | app.py:170-171 | Starting from a counter, the n-th log line becomes step counter + n, and nothing is skipped. |
| LogHandler.CounterCountsHandled | app.py:170-179 | The counter advances by exactly the number of calls made. |
| LogHandler.Deliver | app.py:171-179 | A handled message changes only its own task, and keeps the manager invariant. |
| LogHandler.DeliverLine | app.py:133-171 | A delivered line adds exactly one step, with its number, content and kind, queues two events, and keeps the status. |
| LogHandler.ThoughtLineIsThink | main.py:28 | The agent's thought line is classified think, and its content is the thought alone. |
| LogHandler.ToolLineIsTool | main.py:31 | The tool-selection line is classified tool and kept whole. |
| LogHandler.ActLineIsAct | main.py:34 | The tool-execution line is classified act and, having no `Result: `, kept whole. |
| LogHandler.FormattedLineIsCleaned | app.py:141-146 | A loguru-formatted thought line loses both prefixes and yields the same content as the bare line. |
| LineBuffer.HasTextIsNotAllSpace | app.py:208 | A line has text after `strip()` exactly when not every character is Python whitespace. |
| LineBuffer.NonBlank | app.py:207-209 | Every forwarded line has non-whitespace text and comes from the input. |
| LineBuffer.NonBlankComplete | app.py:207-209 | Every input line with non-whitespace text is forwarded. |
| LineBuffer.NonBlankSingle | app.py:207-209 | A single line is forwarded exactly when it has text. |
| LineBuffer.NonBlankAppend | app.py:206-209 | The filter works line by line. With NonBlankSingle this makes the forwarded lines the lines with text, in their original order. |
| LineBuffer.Write | app.py:203-211 | Text without a line feed only grows the buffer. Otherwise the buffer becomes exactly the text after the last line feed. The buffer then holds no line feed, and every forwarded line is a single non-blank line. |
| LineBuffer.WriteIsStreaming | app.py:203-210 | A write forwards exactly the lines that a character-by-character line reader would complete, and keeps the same partial line. |
| LineBuffer.WritesCompose | app.py:203-210 | Two writes have the same effect as one write of both texts: how output is chunked does not matter. |
| Text.SplitJoin | app.py:206 | Joining the pieces of a split gives back the text. |
| Text.JoinSplit | app.py:206 | Splitting a join of separator-free pieces gives back the pieces. |
| EventStream.RenderIsWireFormat | app.py:305 | An event frame renders as `event: <type>`, a line feed, `data: <json>`, and a blank line. |
| EventStream.HeartbeatIsWireFormat | app.py:320-323 | A heartbeat renders as the comment line `: heartbeat` and a blank line. |
| EventStream.Pump | app.py:295-337 | The generator takes at most the queued events and yields at least one frame per event taken and at most one per turn. Every comment it yields is the heartbeat. |
| EventStream.PumpSends | app.py:299-309 | With heartbeats dropped, the frames are exactly the taken events, in queue order, each once. |
| EventStream.PumpTakesCompleteLast | app.py:308-309 | No event of type "complete" is taken before the last event taken. |
| EventStream.PumpStopsAtComplete | app.py:305-309 | When the last event taken is "complete", its frame is the last frame: nothing follows it. |
| EventStream.PumpKeepsStreaming | app.py:295-323 | Without cancellation and without a "complete" event, every turn yields a frame. |
| EventStream.Stream | app.py:260-337 | An unknown task gets 404. A missing queue gets the one error block. Otherwise the status snapshot comes first, then the pumped events, and the events taken leave the queue. |
| EventStream.StreamConservesEvents | app.py:276-309 | For a valid manager the stream starts normally. The taken events followed by the remaining queue are the original queue, and the invariant holds. |
| EventStream.WireRoundTrip | app.py:287-322 | Reading rendered single-line frames yields exactly their messages. Comments yield nothing. |
| EventStream.StreamRoundTrip | app.py:270-309 | When no encoding or event type holds a line feed, the client reads the status snapshot, then one message per taken event, with the event's type and JSON. |
| Runner.DeliverAll | app.py:131-179 | Handing the handler a sequence of messages changes only the running task and keeps the invariant. |
| Runner.DeliverAllSteps | app.py:170-179 | The running task gains one step per numbered message, in order, and its status is unchanged. |
| Runner.Finish | app.py:234-258 | Ending a run changes only its own task and keeps the invariant. |
| Runner.FinishSpec | app.py:234-258 | A result is recorded as step 999 and the task completes with the end marker last. A timeout, an exception or a failed setup fails the task with its message and queues an error event last. |
| Runner.Prepare | app.py:121-190 | Everything before the outcome changes only its own task and keeps the invariant. |
| Runner.PrepareSpec | app.py:121-190 | Before the outcome, the task is running. Its steps are the start notice, then the handler's steps. Its queue only grows. |
| Runner.RunTask | app.py:121-258 | With one run at a time, a run of an unknown task changes nothing and a run of a known task changes only that task. |
| Runner.RunTaskEnds | app.py:234-258 | The final status and the last queued event match the run's outcome, including a failed setup. |
| Runner.RunTaskSteps | app.py:170-258 | The steps of a run are: the start notice as step 0, one step per numbered log message, then the result as step 999 if the flow finished. A failed setup adds no step. |
| Runner.SetupFailureSpec | app.py:255-258 | When registering the handler raises, the task, already running, fails with "Error in task setup: " and the message. Its steps are unchanged, and exactly one event is queued: the error. No start notice is logged. |
| Runner.FailedRunNeverEnds | app.py:238-258 | After a timeout, an exception or a failed setup, no event of type "complete" is queued unless a structured record asks for that step type, so the task's stream does not end by itself. |
| HomePage.Submit | frontend/app/page.tsx:62-103 | A request is made exactly when the prompt is not blank, and it carries the untrimmed prompt. A blank prompt changes nothing. Navigation goes to `/tasks/<id>` for a non-empty id, with the form loading. A failure resets loading and the logo and shows the error. |
| HomePage.SubmitOutcomes | frontend/app/page.tsx:81-101 | Navigation happens exactly when the server answered OK with a non-empty `task_id`. Each failure shows its own message. |
| HomePage.BlankIsAllSpace | frontend/app/page.tsx:64 | A prompt is blank after `trim()` exactly when every character is JavaScript whitespace. |
| HomePage.SubmitDisabledRules | frontend/app/page.tsx:169 | When the form is not loading, the button is disabled exactly when a click would send nothing (a blank prompt). A failure re-enables the button for the same prompt. A navigation leaves it disabled. |
| HomePage.CreatedTaskIsOpened | frontend/app/page.tsx:85-95 | The server's answer for a newly created task opens that task's page. |
| HomePage.KeyDown | frontend/app/page.tsx:105-110 | Enter without Shift submits. Every other key or combination does nothing. |
| HomePage.KeyDownMatchesButton | frontend/app/page.tsx:105-110 | On a form that is not loading, Enter without Shift sends the untrimmed prompt exactly when the submit button is enabled, so a blank prompt sends nothing. Nothing else sends a request. |
| HomePage.TextareaHeight | frontend/app/page.tsx:116 | The height is the content height capped at 120 pixels. |
| HomePage.RecentTasks | frontend/app/page.tsx:27-37 | An OK reply shows its first five tasks, or all of them when there are fewer. Any other reply keeps the list shown. |
| HomePage.RecentAreNewest | frontend/app/page.tsx:32 | Against `GET /tasks`, the page shows up to five tasks, newest first, each no older than any task left out. |
| HomePage.BadgeRules | frontend/app/page.tsx:230-234 | The badge is the first matching rule: exact "completed" is green, exact "running" is blue, any other status containing "failed" is red, and everything else is neutral. |
| HomePage.StatusBadges | frontend/app/page.tsx:230-234 | Of the server's statuses, pending is neutral, running is blue, completed is green, and every failure is red. |
| HomePage.TimeoutIsRed | frontend/app/page.tsx:233 | The status a timed-out run is left with, "failed: Task execution timed out after 1 hour", shows red. |
| HomePage.RunBadge | frontend/app/page.tsx:230-234 | After a run, the task's badge is green when the flow finished and red when it timed out, raised or failed in setup. |
| HomePage.CreateKeepsStatusesKnown | app.py:46-56 | Creating a task leaves only statuses the badge rules cover. |
| HomePage.StartKeepsStatusesKnown | app.py:123 | Starting a task leaves only statuses the badge rules cover. |
| HomePage.UpdateKeepsStatusesKnown | app.py:58-71 | Recording a step leaves only statuses the badge rules cover. |
| HomePage.CompleteKeepsStatusesKnown | app.py:73-82 | Completing a task leaves only statuses the badge rules cover. |
| HomePage.FailKeepsStatusesKnown | app.py:84-90 | Failing a task leaves only statuses the badge rules cover. |
| AsyncLogger.Add | app/logger.py:45-57 | The list stays duplicate-free. A handler ends up listed exactly when it already was or is callable. The argument is always returned unless the underlying add raises. The underlying id is recorded for a new handler. |
| AsyncLogger.Remove | app/logger.py:59-70 | The handler leaves the list even when the underlying removal fails. Its id is forgotten only when that removal succeeds. An unlisted handler changes nothing. |
| AsyncLogger.RemoveSparesOthers | app/logger.py:59-70 | Removing one handler leaves every other handler listed as before, with the same id. |
| AsyncLogger.FailedRemovalLeavesStaleId | app/logger.py:65-70 | After a failed underlying removal the old id stays behind. Adding the handler again overwrites it. |
| AsyncLogger.Notify | app/logger.py:85-91 | Every handler is called, in registration order, even after one raises. The failures are reported in order. |

## Left out

- The agent flow (`Manus`, `FlowFactory`, `flow.execute`) and its one-hour `asyncio.wait_for` are not modelled. Their log messages and their outcome are parameters of `Runner.RunTask`.
- Concurrency is not modelled. This covers handler calls scheduled with `asyncio.create_task` and a second client reading the same queue. It also covers the message that the `except` branches of `run_task` log through `logger.error` (app.py:240, app.py:245) while the handler is still registered. Through the loguru sink (app/logger.py:52) that message is handled by a task scheduled to run later. That task can queue further step and status events after the error event. The same holds for a message the flow logged just before it raised, whose scheduled delivery has not yet run when `fail_task` queues the error event. Each of these would need an interleaving model. The model delivers messages in the order given.
- Runner.RunTask: the log handlers belong to one shared logger. Every message logged is handed to every registered handler (app/logger.py:85-91), and the loguru sink added for each handler (app/logger.py:51-54) fires on every message. `run_task` registers one handler per task (app.py:185) and runs in the background (app.py:113). So while two runs overlap, each task records the other's log lines, including its "Task execution failed" or "Error in task setup" message (app.py:240, 245, 257), as its own steps. The isolation stated by `Runner.RunTask`, `Runner.DeliverAll`, `Runner.Prepare` and `Runner.Finish` holds for one run at a time only.
- Runner.SetupFailureSpec: after a failed setup the handler stays in the logger's list, because `AsyncLogger.Add` appends it before the underlying add raises and the `finally` that removes it belongs to the inner `try`. It goes on receiving every later message, which the previous line leaves out. Only a failure of `logger.add` is modelled as a setup failure. The other statements the outer `except` guards do not raise in this model.
- Runner.RunTaskEnds: the outcome's event is last among the events `run_task` queues itself. The late steps that the echoed `logger.error` message may add afterwards are not modelled, as explained on the concurrency line.
- JSON serialisation and its failure branches (app.py:280-290, app.py:311-318, app.py:329-337) are not modelled. `json.dumps` is a parameter, and the serialisation and stream error paths are left out.
- `uuid.uuid4` and `datetime.now` are not modelled. The id and the creation time are parameters of `Tasks.CreateTask`, with time as an integer, and `isoformat` is left out.
- Tasks.UpdateTaskStep: the status event holds a snapshot of the steps. In Python it holds the live `task.steps` list, which later steps go on to extend before the event is serialised.
- Tasks.CompleteTask: its status event (app.py:77-81) likewise holds a snapshot, where Python puts in the same live list.
- `\w`, `\d`, `str.lower()` and `toLowerCase` are modelled on ASCII only. Python's Unicode word characters, digits and case mapping are wider.
- loguru itself is not modelled: its formatting, levels and sinks. `AsyncLogger._handle_original_log` is left out too, so a message that reaches a handler both directly and through the loguru sink is counted once.
- The interceptor's own handler (step `9000 + counter`, app.py:214-216) and its `StringIO.write` are not modelled. The interceptor is never installed as `sys.stdout`.
- The client reader handles line feed as the only line ending. A conforming reader also ends a line at a carriage return. `json.dumps` escapes carriage returns, but an event type is written unescaped (app.py:305), so `EventStream.StreamRoundTrip` speaks for a real client only when no event type holds a carriage return either.
- The client reader ignores the `id` and `retry` fields of the event-stream format. The server never sends them.
- A queue is well formed only as the manager's operations leave it. A stream that takes a "completed" status off the queue and is then cancelled leaves the end marker at the front of the queue, with no status before it. A client that reconnects still gets the task's current status first, as the snapshot frame. No lemma states the ordering of a stream's frames across such reconnections.
- Cancellation is modelled as a turn that ends the generator. Timeouts of the queue wait are modelled as idle turns. Real time is not modelled.
- The task page (frontend/app/tasks/) that consumes the stream, app/interceptors.py, app/task_executor.py, api-proxy.py, the CLI in main.py and the presentational components are not part of this model.
- A structured record is modelled with `step` as an optional integer and `message` and `kind` as optional strings. A key that is present with the value `None`, or a non-integer `step` (app.py:174-179), cannot be represented.
- The create response's `task_id` is modelled as an optional string. A truthy non-string id, such as a number, cannot be represented.
- The DOM is not modelled. `fetch`, `localStorage`, `window.location` and `setTimeout` are replaced by the values they give or receive.
- FastAPI routing, CORS, static files, templates and the generic exception handler are not modelled.

## Notes on the source

- `'Tool .* completed' in cleaned_message` (app.py:159) is a plain substring test, not a regular expression. The model tests for that literal text.
- A step whose type is "complete" ends the stream (app.py:308). Only a structured record can ask for that type (`LogHandler.NameIsNotComplete`).
- A task that times out or raises never queues "complete", unless a structured record asked for that step type (`Runner.FailedRunNeverEnds`). After its error event, the events still to come are the late step and status events from deliveries that were still pending when the run ended. These include the echoed `logger.error` message, and any message the flow logged just before it raised (see "## Left out"). After that, its stream sends heartbeats until the client leaves.
- `handleSubmit` does not look at `loading`. A second submission is kept out by the `disabled` attributes: the button's (frontend/app/page.tsx:169) closes the click path, and the textarea's (frontend/app/page.tsx:153) closes the Enter-key path.
- The "running" status is set without queuing an event, so a client already streaming sees it only in the next step's status snapshot.

=== FILE: asynclogger.dfy ===
/** The handler registry of `AsyncLogger` (app/logger.py): a list of async
    handlers without duplicates and, beside it, the id under which each one
    was also registered with the underlying loguru logger. The underlying
    logger is reduced to what it answers: the id it hands out, whether
    adding raises, whether removing succeeds. */
module AsyncLogger {

  import opened Wrappers
  import opened Text

  datatype Registry<H(==)> = Registry(handlers: seq<H>, ids: map<H, nat>)

  function Fresh<H(==)>(): (r: Registry<H>)
    ensures Distinct(r.handlers) && r.handlers == [] && r.ids == map[]
  {
    Registry([], map[])
  }

  /** What `add` did: it returned the handler, or the underlying `add`
      raised after the handler was already appended. */
  datatype Added<H(==)> = Returned(registry: Registry<H>, handler: H) | Raised(registry: Registry<H>)

  /** `add(handler)`: a callable handler that is not yet listed is appended
      and registered underneath, whose id (`None` when the underlying call
      raises) is recorded; anything else leaves the registry alone. */
  function Add<H(==)>(r: Registry<H>, h: H, isCallable: bool, underlying: Option<nat>): (a: Added<H>)
    requires Distinct(r.handlers)
    ensures Distinct(a.registry.handlers)
    ensures h in a.registry.handlers <==> (h in r.handlers || isCallable)
    ensures a.Returned? <==> (!isCallable || h in r.handlers || underlying.Some?)
    ensures a.Returned? ==> a.handler == h
    ensures !isCallable || h in r.handlers ==> a.registry == r
    ensures isCallable && h !in r.handlers ==>
      && a.registry.handlers == r.handlers + [h]
      && (underlying.Some? ==> a.registry.ids == r.ids[h := underlying.value])
      && (underlying.None? ==> a.registry.ids == r.ids)
  {
    if isCallable && h !in r.handlers then
      var handlers := r.handlers + [h];
      match underlying
      case Some(id) => Returned(Registry(handlers, r.ids[h := id]), h)
      case None => Raised(Registry(handlers, r.ids))
    else Returned(r, h)
  }

  /** Where `h` first occurs. */
  function IndexOf<H(==)>(s: seq<H>, h: H): (i: nat)
    requires h in s
    ensures i < |s| && s[i] == h && h !in s[..i]
  {
    if s[0] == h then 0
    else
      var i := 1 + IndexOf(s[1..], h);
      assert s[..i] == [s[0]] + s[1..][..i - 1];
      i
  }

  /** `list.remove`: drop the first occurrence. */
  function RemoveFirst<H(==)>(s: seq<H>, h: H): (r: seq<H>)
    requires h in s
    ensures |r| == |s| - 1
    ensures multiset(r) == multiset(s) - multiset{h}
  {
    var i := IndexOf(s, h);
    assert s == s[..i] + [h] + s[i + 1..];
    s[..i] + s[i + 1..]
  }

  /** The list without `h`: the reference for removal. */
  function Without<H(==)>(s: seq<H>, h: H): (r: seq<H>)
    ensures h !in r
  {
    if s == [] then []
    else (if s[0] == h then [] else [s[0]]) + Without(s[1..], h)
  }

  lemma {:induction false} WithoutAbsent<H>(s: seq<H>, h: H)
    requires h !in s
    ensures Without(s, h) == s
    decreases |s|
  {
    if s != [] {
      WithoutAbsent(s[1..], h);
    }
  }

  lemma {:induction false} WithoutAppend<H>(a: seq<H>, b: seq<H>, h: H)
    ensures Without(a + b, h) == Without(a, h) + Without(b, h)
    decreases |a|
  {
    if a == [] {
      assert a + b == b;
    } else {
      assert (a + b)[1..] == a[1..] + b;
      WithoutAppend(a[1..], b, h);
    }
  }

  lemma WithoutAround<H>(pre: seq<H>, h: H, post: seq<H>)
    requires h !in pre && h !in post
    ensures Without(pre + ([h] + post), h) == pre + post
  {
    WithoutAbsent(pre, h);
    WithoutAbsent(post, h);
    WithoutAppend(pre, [h] + post, h);
    WithoutAppend([h], post, h);
    assert Without([h], h) == [] by {
      assert [h][1..] == [];
    }
    assert [] + post == post;
  }

  /** In a list without duplicates, dropping the first occurrence drops them all. */
  lemma RemoveFirstIsWithout<H>(s: seq<H>, h: H)
    requires Distinct(s) && h in s
    ensures RemoveFirst(s, h) == Without(s, h)
  {
    var i := IndexOf(s, h);
    var pre, post := s[..i], s[i + 1..];
    assert h !in post by {
      assert forall k :: 0 <= k < |post| ==> post[k] == s[i + 1 + k];
    }
    assert s == pre + ([h] + post);
    WithoutAround(pre, h, post);
  }

  /** `remove(handler)`: a listed handler leaves the list; its recorded id is
      forgotten only when the underlying removal succeeds. */
  function Remove<H(==)>(r: Registry<H>, h: H, underlyingOk: bool): (r': Registry<H>)
    requires Distinct(r.handlers)
    ensures Distinct(r'.handlers)
    ensures h !in r'.handlers
    ensures r'.handlers == Without(r.handlers, h)
    ensures h !in r.handlers ==> r' == r
    ensures h in r.handlers && h in r.ids && underlyingOk ==> r'.ids == r.ids - {h}
    ensures !(h in r.handlers && h in r.ids && underlyingOk) ==> r'.ids == r.ids
  {
    if h in r.handlers then
      var handlers := RemoveFirst(r.handlers, h);
      RemoveFirstIsWithout(r.handlers, h);
      DistinctRemoveFirst(r.handlers, h);
      if h in r.ids && underlyingOk then Registry(handlers, r.ids - {h})
      else Registry(handlers, r.ids)
    else
      WithoutAbsent(r.handlers, h);
      r
  }

  lemma DistinctRemoveFirst<H>(s: seq<H>, h: H)
    requires Distinct(s) && h in s
    ensures Distinct(RemoveFirst(s, h))
  {
    var r := RemoveFirst(s, h);
    var i := IndexOf(s, h);
    forall a, b | 0 <= a < b < |r| ensures r[a] != r[b] {
      var a' := if a < i then a else a + 1;
      var b' := if b < i then b else b + 1;
      assert r[a] == s[a'] && r[b] == s[b'];
    }
  }

  /** Removing one handler leaves every other handler exactly where it was,
      relative to the rest, with its id. */
  lemma RemoveSparesOthers<H>(r: Registry<H>, h: H, underlyingOk: bool, g: H)
    requires Distinct(r.handlers) && g != h
    ensures var r' := Remove(r, h, underlyingOk);
      && (g in r'.handlers <==> g in r.handlers)
      && (g in r'.ids <==> g in r.ids)
      && (g in r.ids ==> r'.ids[g] == r.ids[g])
  {
    var r' := Remove(r, h, underlyingOk);
    if g in r.handlers {
      var k :| 0 <= k < |r.handlers| && r.handlers[k] == g;
      WithoutKeeps(r.handlers, h, k);
    }
    if g in r'.handlers {
      WithoutSub(r.handlers, h, g);
    }
  }

  lemma {:induction false} WithoutKeeps<H>(s: seq<H>, h: H, k: nat)
    requires k < |s| && s[k] != h
    ensures s[k] in Without(s, h)
    decreases k
  {
    if k > 0 {
      WithoutKeeps(s[1..], h, k - 1);
    }
  }

  lemma {:induction false} WithoutSub<H>(s: seq<H>, h: H, g: H)
    requires g in Without(s, h)
    ensures g in s
    decreases |s|
  {
    if s[0] != g {
      WithoutSub(s[1..], h, g);
    }
  }

  /** A removal whose underlying call fails leaves a stale id behind: the
      handler is gone from the list while its id is still recorded, and
      adding it again records a new id over the stale one. */
  lemma FailedRemovalLeavesStaleId<H>(r: Registry<H>, h: H, id: nat)
    requires Distinct(r.handlers) && h in r.handlers && h in r.ids
    ensures var r' := Remove(r, h, false);
      && h !in r'.handlers && h in r'.ids && r'.ids[h] == r.ids[h]
      && Add(r', h, true, Some(id)).registry.ids[h] == id
  {
  }

  // ---------------------------------------------------------------------
  // `_notify_async_handlers`

  /** The handlers whose call raises, in list order (reported one by one). */
  function Failing<H>(s: seq<H>, raises: H -> bool): (r: seq<H>)
    ensures |r| <= |s|
    ensures forall k :: 0 <= k < |r| ==> r[k] in s && raises(r[k])
  {
    if s == [] then []
    else Failing(s[..|s| - 1], raises) + (if raises(s[|s| - 1]) then [s[|s| - 1]] else [])
  }

  /** Calls every handler in list order; a handler that raises is reported
      and the loop goes on to the next one. */
  method Notify<H(==)>(r: Registry<H>, raises: H -> bool) returns (called: seq<H>, reported: seq<H>)
    ensures called == r.handlers
    ensures reported == Failing(r.handlers, raises)
  {
    called := [];
    reported := [];
    var i := 0;
    while i < |r.handlers|
      invariant 0 <= i <= |r.handlers|
      invariant called == r.handlers[..i]
      invariant reported == Failing(r.handlers[..i], raises)
    {
      var h := r.handlers[i];
      called := called + [h];
      if raises(h) {
        reported := reported + [h];
      }
      assert r.handlers[..i + 1][..i] == r.handlers[..i];
      i := i + 1;
    }
    assert r.handlers[..i] == r.handlers;
  }

}

=== FILE: eventstream.dfy ===
/** The `/tasks/{id}/events` endpoint (`task_events` and its `event_generator`
    in app.py): the task's queue drained as a Server-Sent Events stream, and
    the client-side reading of that stream as the event-stream interpretation
    algorithm of section 9.2.6 of the WHATWG HTML Living Standard describes
    it. */
module EventStream {

  import opened Wrappers
  import opened Text
  import opened Tasks

  // ---------------------------------------------------------------------
  // Wire format

  /** One block of the stream: a comment or an event with its data. */
  datatype Frame = Comment(text: string) | Dispatched(kind: string, data: string)

  /** Each line followed by a line feed. */
  function Terminated(lines: seq<string>): string {
    if lines == [] then [] else lines[0] + "\n" + Terminated(lines[1..])
  }

  /** The lines of a frame; the empty last line ends the block. */
  function Lines(f: Frame): seq<string> {
    match f
    case Comment(t) => [":" + t, ""]
    case Dispatched(k, d) => ["event: " + k, "data: " + d, ""]
  }

  function Render(f: Frame): string {
    Terminated(Lines(f))
  }

  function Concat(fs: seq<Frame>): string {
    if fs == [] then [] else Render(fs[0]) + Concat(fs[1..])
  }

  /** The comment sent when five seconds pass without an event. */
  const Heartbeat: Frame := Comment(" heartbeat")

  /** The block sent when the task has no queue. */
  const QueueMissing: Frame := Dispatched("error", "{\"message\": \"Task queue not found\"}")

  lemma TerminatedCons(l: string, ls: seq<string>)
    ensures Terminated([l] + ls) == l + "\n" + Terminated(ls)
  {
    assert ([l] + ls)[1..] == ls;
  }

  /** An event frame renders to exactly the text the generator yields for it. */
  lemma RenderIsWireFormat(k: string, d: string)
    ensures Render(Dispatched(k, d)) == "event: " + k + "\ndata: " + d + "\n\n"
  {
    var a, b := "event: " + k, "data: " + d;
    TerminatedCons("", []);
    TerminatedCons(b, [""]);
    TerminatedCons(a, [b, ""]);
    assert [a, b, ""] == [a] + [b, ""] && [b, ""] == [b] + [""];
    assert Render(Dispatched(k, d)) == a + "\n" + (b + "\n" + "\n");
    AppendAssoc(a + "\n", b + "\n", "\n");
    AppendAssoc(a, "\n", b);
    AppendAssoc("\n", "data: ", d);
    AppendAssoc(a, "\n", "data: " + d);
    assert "\n" + "data: " == "\ndata: ";
    AppendAssoc(a, "\ndata: ", d);
    assert "\n" + "\n" == "\n\n";
  }

  /** A heartbeat renders to the comment line the generator yields. */
  lemma HeartbeatIsWireFormat()
    ensures Render(Heartbeat) == ": heartbeat\n\n"
  {
    TerminatedCons("", []);
    TerminatedCons(": heartbeat", [""]);
    assert ":" + " heartbeat" == ": heartbeat";
    assert Lines(Heartbeat) == [": heartbeat"] + [""];
    assert ": heartbeat" + "\n" + "\n" == ": heartbeat\n\n";
  }

  /** An event of the queue as a frame: its type names the SSE event and
      `encode` stands for `json.dumps`. */
  function EventFrame(e: Event, encode: Event -> string): Frame {
    Dispatched(e.Type(), encode(e))
  }

  function EventFrames(es: seq<Event>, encode: Event -> string): (r: seq<Frame>)
    ensures |r| == |es|
    ensures forall i :: 0 <= i < |es| ==> r[i] == EventFrame(es[i], encode)
  {
    if es == [] then [] else [EventFrame(es[0], encode)] + EventFrames(es[1..], encode)
  }

  /** The event frames of a stream, heartbeats dropped. */
  function Sent(fs: seq<Frame>): (r: seq<Frame>)
    ensures forall k :: 0 <= k < |r| ==> r[k].Dispatched? && r[k] in fs
  {
    if fs == [] then []
    else if fs[0].Comment? then Sent(fs[1..])
    else [fs[0]] + Sent(fs[1..])
  }

  // ---------------------------------------------------------------------
  // The generator

  /** What happens at each turn of the generator's loop: five seconds pass
      with no event (the `asyncio.TimeoutError` branch), the next queued
      event is ready, or the client goes away (`asyncio.CancelledError`).
      A ready turn on an empty queue waits out the timeout.

      An idle turn may come while events are queued, which `queue.get` never
      allows, since it returns at once when an event is ready. Allowing it
      over-approximates the real loop, and it lets a pump over the final
      queue also describe a stream that runs while the producers are still
      adding events. */
  datatype Tick = Idle | Ready | Cancelled

  datatype Pumped = Pumped(frames: seq<Frame>, consumed: nat)

  /** The `while True` loop of `event_generator` over the queue `q`. */
  function Pump(q: seq<Event>, ticks: seq<Tick>, encode: Event -> string): (r: Pumped)
    ensures r.consumed <= |q|
    ensures r.consumed <= |r.frames| <= |ticks|
    ensures forall k :: 0 <= k < |r.frames| && r.frames[k].Comment? ==> r.frames[k] == Heartbeat
    decreases |ticks|
  {
    if ticks == [] || ticks[0] == Cancelled then Pumped([], 0)
    else if ticks[0] == Idle || q == [] then
      var rest := Pump(q, ticks[1..], encode);
      Pumped([Heartbeat] + rest.frames, rest.consumed)
    else if q[0].Type() == "complete" then Pumped([EventFrame(q[0], encode)], 1)
    else
      var rest := Pump(q[1..], ticks[1..], encode);
      Pumped([EventFrame(q[0], encode)] + rest.frames, 1 + rest.consumed)
  }

  lemma {:induction false} SentSkip(f: Frame, fs: seq<Frame>)
    ensures Sent([f] + fs) == (if f.Comment? then [] else [f]) + Sent(fs)
  {
    assert ([f] + fs)[1..] == fs;
  }

  lemma TakeCons<T>(q: seq<T>, n: nat)
    requires q != [] && n <= |q| - 1
    ensures q[..1 + n] == [q[0]] + q[1..][..n]
  {
  }

  /** Sending one more event frame in front extends what is sent by it. */
  lemma SentEventFirst(e: Event, frames: seq<Frame>, taken: seq<Event>, encode: Event -> string)
    requires Sent(frames) == EventFrames(taken, encode)
    ensures Sent([EventFrame(e, encode)] + frames) == EventFrames([e] + taken, encode)
  {
    SentSkip(EventFrame(e, encode), frames);
    assert ([e] + taken)[1..] == taken;
  }

  /** The generator forwards the events it takes off the queue, in queue
      order and each exactly once, with only heartbeats between them. */
  lemma {:induction false} PumpSends(q: seq<Event>, ticks: seq<Tick>, encode: Event -> string)
    ensures var r := Pump(q, ticks, encode);
      Sent(r.frames) == EventFrames(q[..r.consumed], encode)
    decreases |ticks|
  {
    if ticks == [] || ticks[0] == Cancelled {
    } else if ticks[0] == Idle || q == [] {
      var rest := Pump(q, ticks[1..], encode);
      PumpSends(q, ticks[1..], encode);
      SentSkip(Heartbeat, rest.frames);
    } else if q[0].Type() == "complete" {
      SentSkip(EventFrame(q[0], encode), []);
      assert q[..1] == [q[0]];
    } else {
      var rest := Pump(q[1..], ticks[1..], encode);
      PumpSends(q[1..], ticks[1..], encode);
      SentEventFirst(q[0], rest.frames, q[1..][..rest.consumed], encode);
      TakeCons(q, rest.consumed);
    }
  }

  /** The generator never takes a `complete` event before the last event it takes. */
  lemma {:induction false} PumpTakesCompleteLast(q: seq<Event>, ticks: seq<Tick>, encode: Event -> string)
    ensures var r := Pump(q, ticks, encode);
      forall i :: 0 <= i < r.consumed - 1 ==> q[i].Type() != "complete"
    decreases |ticks|
  {
    if ticks == [] || ticks[0] == Cancelled {
    } else if ticks[0] == Idle || q == [] {
      PumpTakesCompleteLast(q, ticks[1..], encode);
    } else if q[0].Type() == "complete" {
    } else {
      var rest := Pump(q[1..], ticks[1..], encode);
      PumpTakesCompleteLast(q[1..], ticks[1..], encode);
      var r := Pump(q, ticks, encode);
      assert r.consumed == 1 + rest.consumed;
      forall i | 0 < i < r.consumed - 1 ensures q[i].Type() != "complete" {
        assert q[1..][i - 1] == q[i];
      }
    }
  }

  /** When the last event taken from `q` is `complete`, its frame is the last one. */
  predicate StopsAfterComplete(q: seq<Event>, r: Pumped, encode: Event -> string) {
    && r.consumed <= |q| && r.consumed <= |r.frames|
    && (r.consumed > 0 && q[r.consumed - 1].Type() == "complete" ==>
          r.frames[|r.frames| - 1] == EventFrame(q[r.consumed - 1], encode))
  }

  lemma StopsAfterHeartbeat(q: seq<Event>, rest: Pumped, encode: Event -> string)
    requires StopsAfterComplete(q, rest, encode)
    ensures StopsAfterComplete(q, Pumped([Heartbeat] + rest.frames, rest.consumed), encode)
  {
    var fs := [Heartbeat] + rest.frames;
    if rest.consumed > 0 {
      assert fs[|fs| - 1] == rest.frames[|rest.frames| - 1];
    }
  }

  lemma StopsAfterEvent(e: Event, q: seq<Event>, rest: Pumped, encode: Event -> string)
    requires e.Type() != "complete"
    requires StopsAfterComplete(q, rest, encode)
    ensures StopsAfterComplete([e] + q, Pumped([EventFrame(e, encode)] + rest.frames, 1 + rest.consumed), encode)
  {
    var fs := [EventFrame(e, encode)] + rest.frames;
    var eq := [e] + q;
    if rest.consumed > 0 {
      assert fs[|fs| - 1] == rest.frames[|rest.frames| - 1];
      assert eq[rest.consumed] == q[rest.consumed - 1];
    } else {
      assert eq[0] == e;
    }
  }

  /** When the last event the generator takes is `complete`, its frame is the
      last frame of the stream: the generator stops right after it. */
  lemma {:induction false} PumpStopsAtComplete(q: seq<Event>, ticks: seq<Tick>, encode: Event -> string)
    ensures StopsAfterComplete(q, Pump(q, ticks, encode), encode)
    decreases |ticks|
  {
    if ticks == [] || ticks[0] == Cancelled {
    } else if ticks[0] == Idle || q == [] {
      PumpStopsAtComplete(q, ticks[1..], encode);
      StopsAfterHeartbeat(q, Pump(q, ticks[1..], encode), encode);
    } else if q[0].Type() == "complete" {
      assert Pump(q, ticks, encode) == Pumped([EventFrame(q[0], encode)], 1);
    } else {
      PumpStopsAtComplete(q[1..], ticks[1..], encode);
      StopsAfterEvent(q[0], q[1..], Pump(q[1..], ticks[1..], encode), encode);
      assert [q[0]] + q[1..] == q;
    }
  }

  /** With no cancellation and no `complete` event, every turn yields a frame. */
  lemma {:induction false} PumpKeepsStreaming(q: seq<Event>, ticks: seq<Tick>, encode: Event -> string)
    requires Cancelled !in ticks
    requires forall i :: 0 <= i < |q| ==> q[i].Type() != "complete"
    ensures |Pump(q, ticks, encode).frames| == |ticks|
    decreases |ticks|
  {
    if ticks == [] {
    } else if ticks[0] == Idle || q == [] {
      assert Cancelled !in ticks[1..];
      PumpKeepsStreaming(q, ticks[1..], encode);
    } else {
      assert Cancelled !in ticks[1..];
      assert forall i :: 0 <= i < |q[1..]| ==> q[1..][i] == q[i + 1];
      PumpKeepsStreaming(q[1..], ticks[1..], encode);
    }
  }

  datatype Streamed = Streamed(frames: seq<Frame>, consumed: nat, manager: Manager)

  /** The status snapshot sent first: the task's status and steps. */
  function Snapshot(t: Task): Event {
    StatusEvent(t.status, t.steps)
  }

  /** `GET /tasks/{id}/events`: 404 for an unknown task, an error block when
      its queue is missing, otherwise the status snapshot followed by the
      pumped queue; the events taken leave the manager's queue. */
  function Stream(m: Manager, id: TaskId, ticks: seq<Tick>, encode: Event -> string): (r: Result<Streamed, int>)
    ensures r.Err? <==> id !in m.tasks
    ensures r.Err? ==> r.error == 404
    ensures r.Ok? && id !in m.queues ==> r.value == Streamed([QueueMissing], 0, m)
    ensures r.Ok? && id in m.queues ==>
      var s := r.value;
      |s.frames| >= 1 && s.frames[0] == EventFrame(Snapshot(m.tasks[id]), encode)
      && s.consumed <= |m.queues[id]|
      && Sent(s.frames[1..]) == EventFrames(m.queues[id][..s.consumed], encode)
      && s.manager == m.(queues := m.queues[id := m.queues[id][s.consumed..]])
  {
    if id !in m.tasks then Err(404)
    else if id !in m.queues then Ok(Streamed([QueueMissing], 0, m))
    else
      var p := Pump(m.queues[id], ticks, encode);
      PumpSends(m.queues[id], ticks, encode);
      assert ([EventFrame(Snapshot(m.tasks[id]), encode)] + p.frames)[1..] == p.frames;
      Ok(Streamed([EventFrame(Snapshot(m.tasks[id]), encode)] + p.frames, p.consumed,
                  m.(queues := m.queues[id := m.queues[id][p.consumed..]])))
  }

  /** Every event is delivered to one reader only: what a stream takes,
      followed by what it leaves, is the queue it found; and the manager
      stays valid. */
  lemma StreamConservesEvents(m: Manager, id: TaskId, ticks: seq<Tick>, encode: Event -> string)
    requires Valid(m) && id in m.tasks
    ensures var r := Stream(m, id, ticks, encode);
      r.Ok? && r.value.frames[0] != QueueMissing
      && m.queues[id] == m.queues[id][..r.value.consumed] + r.value.manager.queues[id]
      && Valid(r.value.manager)
  {
    var r := Stream(m, id, ticks, encode);
    assert m.queues[id] == m.queues[id][..r.value.consumed] + m.queues[id][r.value.consumed..];
  }

  // ---------------------------------------------------------------------
  // The reader (section 9.2.6 of the WHATWG HTML Living Standard, with line
  // feeds as the only line ending and the `id` and `retry` fields ignored)

  datatype Message = Message(kind: string, data: string)

  /** Event type buffer, data buffer, and the messages dispatched so far. */
  datatype Reader = Reader(eventType: string, data: string, out: seq<Message>)

  predicate Fresh(p: Reader) {
    p.eventType == [] && p.data == []
  }

  function MessageType(kind: string): string {
    if kind == [] then "message" else kind
  }

  /** A blank line: dispatch unless no data arrived, and reset the buffers. */
  function Dispatch(p: Reader): (r: Reader)
    ensures Fresh(r)
  {
    if p.data == [] then Reader([], [], p.out)
    else Reader([], [], p.out + [Message(MessageType(p.eventType), p.data[..|p.data| - 1])])
  }

  predicate NotColon(c: char) { c != ':' }

  datatype Field = Field(name: string, value: string)

  /** Field name up to the first colon; value after it, less one leading space. */
  function FieldOf(line: string): Field {
    var n := Run(line, 0, NotColon);
    if n == |line| then Field(line, [])
    else
      var v := line[n + 1..];
      Field(line[..n], if v != [] && v[0] == ' ' then v[1..] else v)
  }

  lemma FieldOfNamed(name: string, value: string)
    requires ':' !in name
    ensures FieldOf(name + ": " + value) == Field(name, value)
  {
    var line := name + ": " + value;
    assert AllFrom(line, 0, |name|, NotColon) by {
      assert forall k :: 0 <= k < |name| ==> line[k] == name[k];
    }
    RunUnique(line, 0, NotColon, |name|);
    assert line[..|name|] == name;
    assert line[|name| + 1..] == " " + value;
  }

  function ProcessLine(p: Reader, line: string): Reader {
    if line == [] then Dispatch(p)
    else if line[0] == ':' then p
    else
      var f := FieldOf(line);
      if f.name == "event" then p.(eventType := f.value)
      else if f.name == "data" then p.(data := p.data + f.value + "\n")
      else p
  }

  function ProcessLines(p: Reader, lines: seq<string>): Reader
    decreases |lines|
  {
    if lines == [] then p else ProcessLines(ProcessLine(p, lines[0]), lines[1..])
  }

  /** The messages a reader dispatches from the whole text; an unterminated
      last line is not processed. */
  function Parse(s: string): seq<Message> {
    var pieces := Split(s, '\n');
    ProcessLines(Reader([], [], []), pieces[..|pieces| - 1]).out
  }

  /** The messages a sequence of frames is meant to deliver. */
  function Messages(fs: seq<Frame>): seq<Message> {
    if fs == [] then []
    else match fs[0]
      case Comment(_) => Messages(fs[1..])
      case Dispatched(k, d) => [Message(MessageType(k), d)] + Messages(fs[1..])
  }

  predicate SingleLine(f: Frame) {
    match f
    case Comment(t) => '\n' !in t
    case Dispatched(k, d) => '\n' !in k && '\n' !in d
  }

  function AllLines(fs: seq<Frame>): seq<string> {
    if fs == [] then [] else Lines(fs[0]) + AllLines(fs[1..])
  }

  lemma {:induction false} TerminatedAppend(a: seq<string>, b: seq<string>)
    ensures Terminated(a + b) == Terminated(a) + Terminated(b)
    decreases |a|
  {
    if a == [] {
      assert a + b == b;
    } else {
      assert (a + b)[1..] == a[1..] + b;
      TerminatedAppend(a[1..], b);
    }
  }

  lemma {:induction false} ConcatLines(fs: seq<Frame>)
    ensures Concat(fs) == Terminated(AllLines(fs))
    decreases |fs|
  {
    if fs != [] {
      ConcatLines(fs[1..]);
      TerminatedAppend(Lines(fs[0]), AllLines(fs[1..]));
    }
  }

  lemma {:induction false} TerminatedIsJoin(lines: seq<string>)
    ensures Terminated(lines) == Join(lines + [""], '\n')
    decreases |lines|
  {
    if lines != [] {
      TerminatedIsJoin(lines[1..]);
      assert (lines + [""])[1..] == lines[1..] + [""];
    }
  }

  /** A reader sees the lines that were terminated. */
  lemma CompleteLines(lines: seq<string>)
    requires forall k :: 0 <= k < |lines| ==> '\n' !in lines[k]
    ensures var pieces := Split(Terminated(lines), '\n');
      pieces[..|pieces| - 1] == lines
  {
    TerminatedIsJoin(lines);
    JoinSplit(lines + [""], '\n');
  }

  lemma {:induction false} ProcessLinesAppend(p: Reader, a: seq<string>, b: seq<string>)
    ensures ProcessLines(p, a + b) == ProcessLines(ProcessLines(p, a), b)
    decreases |a|
  {
    if a == [] {
      assert a + b == b;
    } else {
      assert (a + b)[1..] == a[1..] + b;
      ProcessLinesAppend(ProcessLine(p, a[0]), a[1..], b);
    }
  }

  lemma FrameRead(p: Reader, f: Frame)
    requires Fresh(p) && SingleLine(f)
    ensures ProcessLines(p, Lines(f)) == Reader([], [], p.out + Messages([f]))
  {
    var l := Lines(f);
    match f
    case Comment(t) =>
      assert l[1..] == [""] && l[1..][1..] == [];
      assert Messages([f]) == [];
    case Dispatched(k, d) =>
      FieldOfNamed("event", k);
      FieldOfNamed("data", d);
      assert l[0] == "event" + ": " + k && l[0][0] == 'e';
      assert l[1] == "data" + ": " + d && l[1][0] == 'd';
      assert l[1..] == ["data: " + d, ""] && l[1..][1..] == [""] && l[1..][1..][1..] == [];
      var p1 := ProcessLine(p, l[0]);
      assert p1 == p.(eventType := k);
      var p2 := ProcessLine(p1, l[1]);
      assert p2 == p1.(data := [] + d + "\n");
      assert [] + d + "\n" == d + "\n";
      assert ProcessLines(p, l) == ProcessLines(p2, [""]);
      assert (d + "\n")[..|d|] == d;
      assert Messages([f]) == [Message(MessageType(k), d)] + Messages([]);
  }

  lemma {:induction false} ReadAllLines(p: Reader, fs: seq<Frame>)
    requires Fresh(p)
    requires forall k :: 0 <= k < |fs| ==> SingleLine(fs[k])
    ensures ProcessLines(p, AllLines(fs)) == Reader([], [], p.out + Messages(fs))
    decreases |fs|
  {
    if fs == [] {
      assert p.out + [] == p.out;
    } else {
      assert AllLines(fs) == Lines(fs[0]) + AllLines(fs[1..]);
      ProcessLinesAppend(p, Lines(fs[0]), AllLines(fs[1..]));
      FrameRead(p, fs[0]);
      var p1 := Reader([], [], p.out + Messages([fs[0]]));
      assert ProcessLines(p, Lines(fs[0])) == p1;
      assert forall k :: 0 <= k < |fs[1..]| ==> SingleLine(fs[1..][k]) by {
        assert forall k :: 0 <= k < |fs[1..]| ==> fs[1..][k] == fs[k + 1];
      }
      ReadAllLines(p1, fs[1..]);
      assert ProcessLines(p, AllLines(fs)) == Reader([], [], p1.out + Messages(fs[1..]));
      MessagesCons(fs);
      AppendAssoc(p.out, Messages([fs[0]]), Messages(fs[1..]));
    }
  }

  lemma MessagesCons(fs: seq<Frame>)
    requires fs != []
    ensures Messages(fs) == Messages([fs[0]]) + Messages(fs[1..])
  {
    assert [fs[0]][1..] == [];
  }

  lemma {:induction false} AllLinesSingle(fs: seq<Frame>)
    requires forall k :: 0 <= k < |fs| ==> SingleLine(fs[k])
    ensures forall k :: 0 <= k < |AllLines(fs)| ==> '\n' !in AllLines(fs)[k]
    decreases |fs|
  {
    if fs != [] {
      AllLinesSingle(fs[1..]);
      var l := Lines(fs[0]);
      assert forall k :: 0 <= k < |l| ==> '\n' !in l[k];
    }
  }

  /** Reading the rendered stream gives back exactly the events sent, in
      order: heartbeats and other comments deliver nothing. */
  lemma WireRoundTrip(fs: seq<Frame>)
    requires forall k :: 0 <= k < |fs| ==> SingleLine(fs[k])
    ensures Parse(Concat(fs)) == Messages(fs)
  {
    var lines := AllLines(fs);
    ConcatLines(fs);
    AllLinesSingle(fs);
    CompleteLines(lines);
    var pieces := Split(Concat(fs), '\n');
    assert pieces[..|pieces| - 1] == lines;
    ReadAllLines(Reader([], [], []), fs);
    assert ProcessLines(Reader([], [], []), lines).out == [] + Messages(fs);
  }

  lemma {:induction false} MessagesOfEvents(es: seq<Event>, encode: Event -> string)
    ensures Messages(EventFrames(es, encode))
      == seq(|es|, i requires 0 <= i < |es| => Message(MessageType(es[i].Type()), encode(es[i])))
    decreases |es|
  {
    if es != [] {
      MessagesOfEvents(es[1..], encode);
    }
  }

  lemma {:induction false} MessagesSkipComments(fs: seq<Frame>)
    ensures Messages(fs) == Messages(Sent(fs))
    decreases |fs|
  {
    if fs != [] {
      MessagesSkipComments(fs[1..]);
      SentSkip(fs[0], fs[1..]);
      assert [fs[0]] + fs[1..] == fs;
      if fs[0].Dispatched? {
        assert ([fs[0]] + Sent(fs[1..]))[1..] == Sent(fs[1..]);
      }
    }
  }

  /** A browser reading `GET /tasks/{id}/events` receives the status snapshot
      as a `status` message and then one message per event taken from the
      queue, typed by the event and carrying its JSON, in queue order;
      `json.dumps` never writes a raw line feed, and the event types must not
      hold one either. */
  lemma StreamRoundTrip(m: Manager, id: TaskId, ticks: seq<Tick>, encode: Event -> string)
    requires id in m.tasks && id in m.queues
    requires forall e: Event :: '\n' !in encode(e)
    requires forall i :: 0 <= i < |m.queues[id]| ==> '\n' !in m.queues[id][i].Type()
    ensures var s := Stream(m, id, ticks, encode).value;
      var es := m.queues[id][..s.consumed];
      Parse(Concat(s.frames))
        == [Message("status", encode(Snapshot(m.tasks[id])))]
           + seq(|es|, i requires 0 <= i < |es| => Message(MessageType(es[i].Type()), encode(es[i])))
  {
    var q := m.queues[id];
    var p := Pump(q, ticks, encode);
    PumpSends(q, ticks, encode);
    var s := Stream(m, id, ticks, encode).value;
    var first := EventFrame(Snapshot(m.tasks[id]), encode);
    assert s.frames == [first] + p.frames;
    PumpedSingleLine(q, ticks, encode);
    forall k | 0 <= k < |s.frames|
      ensures SingleLine(s.frames[k])
    {
      if k > 0 {
        assert s.frames[k] == p.frames[k - 1];
      }
    }
    WireRoundTrip(s.frames);
    assert Messages(s.frames) == [Message("status", encode(Snapshot(m.tasks[id])))] + Messages(p.frames) by {
      assert s.frames[1..] == p.frames;
    }
    MessagesSkipComments(p.frames);
    MessagesOfEvents(q[..p.consumed], encode);
  }

  /** With line-free encodings and event types, every frame the generator
      yields is one line per field. */
  lemma PumpedSingleLine(q: seq<Event>, ticks: seq<Tick>, encode: Event -> string)
    requires forall e: Event :: '\n' !in encode(e)
    requires forall i :: 0 <= i < |q| ==> '\n' !in q[i].Type()
    ensures var p := Pump(q, ticks, encode);
      forall k :: 0 <= k < |p.frames| ==> SingleLine(p.frames[k])
  {
    var p := Pump(q, ticks, encode);
    PumpSends(q, ticks, encode);
    forall k | 0 <= k < |p.frames|
      ensures SingleLine(p.frames[k])
    {
      if p.frames[k].Dispatched? {
        SentHas(p.frames, k);
        var j :| 0 <= j < |q[..p.consumed]| && EventFrames(q[..p.consumed], encode)[j] == p.frames[k];
        assert q[..p.consumed][j] == q[j];
      }
    }
  }

  lemma {:induction false} SentHas(fs: seq<Frame>, k: nat)
    requires k < |fs| && fs[k].Dispatched?
    ensures fs[k] in Sent(fs)
    decreases k
  {
    SentSkip(fs[0], fs[1..]);
    assert [fs[0]] + fs[1..] == fs;
    if k > 0 {
      SentHas(fs[1..], k - 1);
    }
  }
}

=== FILE: homepage.dfy ===
/** The rules of the home page (frontend/app/page.tsx): the prompt form and
    its submission, the Enter key, the textarea height, the recent-task list
    and the status badge. The browser calls (`fetch`, `localStorage`,
    `window.location`, `setTimeout`) are replaced by their results. */
module HomePage {

  import opened Wrappers
  import opened Text
  import Tasks
  import LogHandler
  import Runner

  // ---------------------------------------------------------------------
  // The prompt form

  /** `!prompt.trim()`: the prompt holds nothing but whitespace. */
  predicate Blank(prompt: string) {
    Trim(prompt, JsIsSpace) == []
  }

  /** A prompt is blank exactly when it is all JavaScript whitespace. */
  lemma BlankIsAllSpace(prompt: string)
    ensures Blank(prompt) <==> AllOf(prompt, JsIsSpace)
  {
    TrimEmptyIffBlank(prompt, JsIsSpace);
  }

  /** The submit button's `disabled` attribute. */
  predicate SubmitDisabled(loading: bool, prompt: string) {
    loading || Blank(prompt)
  }

  datatype Form = Form(prompt: string, loading: bool, error: string, showLogo: bool)

  /** The parsed body of a create response: `task_id` when it is a
      non-null string, `None` when the body is null or has no such field. */
  datatype Body = Unparsable(message: string) | Json(taskId: Option<string>)

  /** What `fetch` produced: a rejection (with the message of the thrown
      value when it is an `Error`), or a response. */
  datatype Reply =
    | NetworkFailure(isError: bool, message: string)
    | Http(ok: bool, status: nat, body: Body)

  datatype Outcome = NotSent | Navigated(url: string, stored: string) | Failed(message: string)

  datatype Submitted = Submitted(form: Form, request: Option<string>, outcome: Outcome)

  const Fallback := "An unexpected error occurred"
  const NoTaskId := "No valid task ID returned from server"
  const ServerErrorPrefix := "Server error: "

  function TaskUrl(id: string): string {
    "/tasks/" + id
  }

  /** The message `handleSubmit` shows for a reply, or the task id to go to. */
  function Verdict(reply: Reply): Result<string, string> {
    match reply
    case NetworkFailure(isError, message) => Err(if isError then message else Fallback)
    case Http(ok, status, body) =>
      if !ok then Err(ServerErrorPrefix + NatToString(status))
      else match body
        case Unparsable(message) => Err(message)
        case Json(taskId) =>
          if taskId.None? || taskId.value == [] then Err(NoTaskId) else Ok(taskId.value)
  }

  /** `handleSubmit`: a blank prompt does nothing; otherwise the prompt is
      posted, and the reply either takes the browser to the task's page
      (remembering its id) or shows an error and re-enables the form. */
  function Submit(f: Form, reply: Reply): (r: Submitted)
    ensures r.request.Some? <==> !Blank(f.prompt)
    ensures r.request.Some? ==> r.request.value == f.prompt
    ensures r.request.None? ==> r == Submitted(f, None, NotSent)
    ensures r.outcome.Navigated? ==>
      r.outcome.stored != [] && r.outcome.url == TaskUrl(r.outcome.stored)
      && r.form == f.(loading := true, error := "", showLogo := true)
    ensures r.outcome.Failed? ==>
      r.form == f.(loading := false, error := r.outcome.message, showLogo := false)
  {
    if Blank(f.prompt) then Submitted(f, None, NotSent)
    else match Verdict(reply)
      case Ok(id) => Submitted(f.(loading := true, error := "", showLogo := true), Some(f.prompt), Navigated(TaskUrl(id), id))
      case Err(message) => Submitted(f.(loading := false, error := message, showLogo := false), Some(f.prompt), Failed(message))
  }

  /** A sent prompt leads to the task page exactly when the server answered
      OK with a non-empty `task_id`; every failure the page raises itself
      shows its own fixed message, a body that fails to parse shows the parse
      error, and a rejection shows its own message or the fallback. */
  lemma SubmitOutcomes(f: Form, reply: Reply)
    requires !Blank(f.prompt)
    ensures var r := Submit(f, reply);
      && (r.outcome.Navigated? <==>
            reply.Http? && reply.ok && reply.body.Json? && reply.body.taskId.Some? && reply.body.taskId.value != [])
      && (r.outcome.Navigated? ==> r.outcome.stored == reply.body.taskId.value)
      && (reply.Http? && !reply.ok ==> r.outcome == Failed(ServerErrorPrefix + NatToString(reply.status)))
      && (reply.Http? && reply.ok && reply.body.Json? && (reply.body.taskId.None? || reply.body.taskId.value == []) ==>
            r.outcome == Failed(NoTaskId))
      && (reply.Http? && reply.ok && reply.body.Unparsable? ==> r.outcome == Failed(reply.body.message))
      && (reply.NetworkFailure? ==> r.outcome == Failed(if reply.isError then reply.message else Fallback))
  {
  }

  /** The server's answer to `POST /tasks` for a task with a non-empty id
      takes the page to that task. */
  lemma CreatedTaskIsOpened(f: Form, m: Tasks.Manager, id: Tasks.TaskId, now: int)
    requires !Blank(f.prompt) && id != []
    ensures var created := Tasks.CreateTask(m, id, f.prompt, now);
      Submit(f, Http(true, 200, Json(Some(created.tasks[id].id)))).outcome == Navigated(TaskUrl(id), id)
  {
  }

  /** The button and `handleSubmit` agree. On a form that is not loading, the
      button is enabled exactly when a click would send the prompt. A failed
      submission re-enables the button for the same prompt, so the user can
      retry. A submission that navigates leaves the button disabled while
      the page changes. */
  lemma SubmitDisabledRules(f: Form, reply: Reply)
    ensures !f.loading ==> (SubmitDisabled(f.loading, f.prompt) <==> Submit(f, reply).request.None?)
    ensures var r := Submit(f, reply);
      r.outcome.Failed? ==> !SubmitDisabled(r.form.loading, r.form.prompt)
    ensures var r := Submit(f, reply);
      r.outcome.Navigated? ==> SubmitDisabled(r.form.loading, r.form.prompt)
  {
  }

  /** `handleKeyDown`: Enter without Shift submits; any other key does nothing. */
  function KeyDown(key: string, shift: bool, f: Form, reply: Reply): (r: Submitted)
    ensures key != "Enter" || shift ==> r == Submitted(f, None, NotSent)
    ensures key == "Enter" && !shift ==> r == Submit(f, reply)
  {
    if key == "Enter" && !shift then Submit(f, reply) else Submitted(f, None, NotSent)
  }

  /** The Enter key goes through the same guard as the button: on a form
      that is not loading, Enter without Shift sends the untrimmed prompt
      exactly when the button is enabled, so a blank prompt sends nothing.
      No other key, and no Enter with Shift, ever sends a request. */
  lemma KeyDownMatchesButton(key: string, shift: bool, f: Form, reply: Reply)
    ensures var r := KeyDown(key, shift, f, reply);
      !f.loading && key == "Enter" && !shift ==> (r.request.Some? <==> !SubmitDisabled(f.loading, f.prompt))
    ensures var r := KeyDown(key, shift, f, reply);
      r.request.Some? ==> key == "Enter" && !shift && !Blank(f.prompt) && r.request.value == f.prompt
  {
  }

  /** The textarea grows with its content up to 120 pixels. */
  function TextareaHeight(scrollHeight: int): (h: int)
    ensures h <= 120 && h <= scrollHeight
    ensures h == scrollHeight || h == 120
  {
    if scrollHeight < 120 then scrollHeight else 120
  }

  // ---------------------------------------------------------------------
  // Recent tasks

  /** What `fetchRecentTasks` got: an OK response and its list, a non-OK
      response, or a failure (network error or unparsable body). */
  datatype ListReply = ListOk(tasks: seq<Tasks.Task>) | ListNotOk | ListFailed

  /** The five most recent tasks: `data.slice(0, 5)` of an OK reply; the
      list shown so far otherwise. */
  function RecentTasks(shown: seq<Tasks.Task>, reply: ListReply): (r: seq<Tasks.Task>)
    ensures reply.ListOk? ==>
      (|r| <= 5 && r <= reply.tasks && (|reply.tasks| >= 5 ==> |r| == 5) && (|reply.tasks| < 5 ==> r == reply.tasks))
    ensures !reply.ListOk? ==> r == shown
  {
    if reply.ListOk? then
      if |reply.tasks| <= 5 then reply.tasks else reply.tasks[..5]
    else shown
  }

  /** Against the server's `GET /tasks`, the page shows tasks no older than
      any task it leaves out, the newest first. */
  lemma RecentAreNewest(m: Tasks.Manager, shown: seq<Tasks.Task>)
    requires Tasks.Valid(m)
    ensures var all := Tasks.ListTasks(m); var r := RecentTasks(shown, ListOk(all));
      && Tasks.NewestFirst(r)
      && (forall i, j :: 0 <= i < |r| && |r| <= j < |all| ==> r[i].createdAt >= all[j].createdAt)
      && |r| == (if |m.tasks| < 5 then |m.tasks| else 5)
  {
    Tasks.ListTasksSpec(m);
    var all := Tasks.ListTasks(m);
    var r := RecentTasks(shown, ListOk(all));
    assert forall i :: 0 <= i < |r| ==> r[i] == all[i];
  }

  // ---------------------------------------------------------------------
  // Status badge

  datatype Badge = Green | Blue | Red | Neutral

  /** The badge class chosen from `task.status`, which may be missing. */
  function BadgeOf(status: Option<string>): Badge {
    if status == Some("completed") then Green
    else if status == Some("running") then Blue
    else if status.Some? && Contains(status.value, "failed") then Red
    else Neutral
  }

  /** The badge is the first matching rule: exactly "completed" is green,
      exactly "running" is blue, any other status containing "failed" is
      red, and everything else, a missing status included, is neutral. */
  lemma BadgeRules(s: string)
    ensures BadgeOf(None) == Neutral
    ensures BadgeOf(Some(s)) == Green <==> s == "completed"
    ensures BadgeOf(Some(s)) == Blue <==> s == "running"
    ensures BadgeOf(Some(s)) == Red <==> s != "completed" && s != "running" && Contains(s, "failed")
  {
  }

  lemma NoLetterF(s: string)
    requires 'f' !in s
    ensures !Contains(s, "failed")
  {
    if Contains(s, "failed") {
      ContainsHasChar(s, "failed", 0);
    }
  }

  lemma PrefixContains(p: string, rest: string)
    ensures Contains(p + rest, p)
  {
    assert OccursAt(p + rest, p, 0);
  }

  /** A status the server can give a task. */
  predicate KnownStatus(s: string) {
    s == Tasks.Pending || s == Tasks.Running || s == Tasks.Completed || Tasks.FailedPrefix <= s
  }

  /** How each server status shows: pending is neutral, running is blue,
      completed is green and never red, and every failure is red. */
  lemma StatusBadges(s: string)
    requires KnownStatus(s)
    ensures s == Tasks.Pending ==> BadgeOf(Some(s)) == Neutral
    ensures s == Tasks.Running ==> BadgeOf(Some(s)) == Blue
    ensures s == Tasks.Completed ==> BadgeOf(Some(s)) == Green
    ensures Tasks.FailedPrefix <= s ==> BadgeOf(Some(s)) == Red
  {
    if s == Tasks.Pending {
      NoLetterF(s);
    }
    if Tasks.FailedPrefix <= s {
      assert s[0] == 'f';
      assert s == "failed" + s[6..];
      PrefixContains("failed", s[6..]);
    }
  }

  /** The status a timed-out run is left with shows red. */
  lemma TimeoutIsRed()
    ensures BadgeOf(Some(Tasks.FailedPrefix + Runner.TimeoutMessage)) == Red
  {
    StatusBadges(Tasks.FailedPrefix + Runner.TimeoutMessage);
  }

  /** After a run, the task's badge is green when the flow finished and red
      when it timed out or raised. */
  lemma RunBadge(m: Tasks.Manager, id: Tasks.TaskId, prompt: string, logs: seq<LogHandler.Message>, outcome: Runner.FlowOutcome)
    requires Tasks.Valid(m) && id in m.tasks
    ensures var status := Runner.RunTask(m, id, prompt, logs, outcome).tasks[id].status;
      BadgeOf(Some(status)) == if outcome.Finished? then Green else Red
  {
    Runner.RunTaskEnds(m, id, prompt, logs, outcome);
    var status := Runner.FinalStatus(outcome);
    if !outcome.Finished? {
      assert Tasks.FailedPrefix <= status;
    }
    StatusBadges(status);
  }

  predicate StatusesKnown(m: Tasks.Manager) {
    forall k :: k in m.tasks ==> KnownStatus(m.tasks[k].status)
  }

  /** Every operation of the manager leaves only known statuses behind, so a
      badge never shows a status the rules above do not cover. */
  lemma CreateKeepsStatusesKnown(m: Tasks.Manager, id: Tasks.TaskId, prompt: string, now: int)
    requires StatusesKnown(m)
    ensures StatusesKnown(Tasks.CreateTask(m, id, prompt, now))
  {
    var r := Tasks.CreateTask(m, id, prompt, now);
    forall k | k in r.tasks ensures KnownStatus(r.tasks[k].status) {
      if k != id { assert r.tasks[k] == m.tasks[k]; }
    }
  }

  lemma StartKeepsStatusesKnown(m: Tasks.Manager, id: Tasks.TaskId)
    requires Tasks.Valid(m) && StatusesKnown(m)
    ensures StatusesKnown(Tasks.StartTask(m, id))
  {
  }

  lemma UpdateKeepsStatusesKnown(m: Tasks.Manager, id: Tasks.TaskId, step: int, result: string, kind: string)
    requires Tasks.Valid(m) && StatusesKnown(m)
    ensures StatusesKnown(Tasks.UpdateTaskStep(m, id, step, result, kind))
  {
    var r := Tasks.UpdateTaskStep(m, id, step, result, kind);
    forall k | k in r.tasks ensures KnownStatus(r.tasks[k].status) {
      assert r.tasks[k].status == m.tasks[k].status;
    }
  }

  lemma CompleteKeepsStatusesKnown(m: Tasks.Manager, id: Tasks.TaskId)
    requires Tasks.Valid(m) && StatusesKnown(m)
    ensures StatusesKnown(Tasks.CompleteTask(m, id))
  {
  }

  lemma FailKeepsStatusesKnown(m: Tasks.Manager, id: Tasks.TaskId, error: string)
    requires Tasks.Valid(m) && StatusesKnown(m)
    ensures StatusesKnown(Tasks.FailTask(m, id, error))
  {
    assert Tasks.FailedPrefix <= Tasks.FailedPrefix + error;
  }
}

=== FILE: linebuffer.dfy ===
/** The output interceptor's line buffer (`OutputInterceptor.write` in app.py):
    written text accumulates, every complete line that is not blank is handed
    on, and the unfinished last line stays buffered. */
module LineBuffer {

  import opened Text

  /** `line.strip()` is non-empty. */
  predicate HasText(line: string) {
    Trim(line, PyIsSpace) != []
  }

  /** A line has text exactly when it is not all Python whitespace. */
  lemma HasTextIsNotAllSpace(line: string)
    ensures HasText(line) <==> !AllOf(line, PyIsSpace)
  {
    TrimEmptyIffBlank(line, PyIsSpace);
  }

  /** The lines that are not blank, in order: each one handed on has text
      and comes from the input (`NonBlankComplete`: none with text is lost). */
  function NonBlank(lines: seq<string>): (r: seq<string>)
    ensures forall k :: 0 <= k < |r| ==> HasText(r[k]) && r[k] in lines
  {
    if lines == [] then []
    else (if HasText(lines[0]) then [lines[0]] else []) + NonBlank(lines[1..])
  }

  /** Nothing with text is dropped: every input line with text is handed on. */
  lemma {:induction false} NonBlankComplete(lines: seq<string>)
    ensures forall k :: 0 <= k < |lines| && HasText(lines[k]) ==> lines[k] in NonBlank(lines)
    decreases |lines|
  {
    if lines != [] {
      var head := if HasText(lines[0]) then [lines[0]] else [];
      var rest := NonBlank(lines[1..]);
      assert NonBlank(lines) == head + rest;
      NonBlankComplete(lines[1..]);
      forall k | 0 <= k < |lines| && HasText(lines[k])
        ensures lines[k] in head + rest
      {
        if k > 0 {
          assert lines[k] == lines[1..][k - 1];
        }
      }
    }
  }

  /** One line is handed on exactly when it has text. With `NonBlankAppend`
      this fixes the order: `NonBlank` is the filter of the lines with text. */
  lemma NonBlankSingle(line: string)
    ensures NonBlank([line]) == if HasText(line) then [line] else []
  {
    assert [line][1..] == [];
  }

  lemma {:induction false} NonBlankAppend(a: seq<string>, b: seq<string>)
    ensures NonBlank(a + b) == NonBlank(a) + NonBlank(b)
    decreases |a|
  {
    if a != [] {
      assert (a + b)[1..] == a[1..] + b;
      NonBlankAppend(a[1..], b);
    } else {
      assert a + b == b;
    }
  }

  /** The buffer after a write and the lines the write hands on. */
  datatype Written = Written(buffer: string, emitted: seq<string>)

  /** `OutputInterceptor.write(text)`. */
  function Write(buffer: string, text: string): (r: Written)
    ensures '\n' !in text ==> r == Written(buffer + text, [])
    ensures '\n' in text ==> '\n' !in r.buffer
    ensures '\n' in text ==>
      (|r.buffer| < |text| && r.buffer == text[|text| - |r.buffer|..] && text[|text| - |r.buffer| - 1] == '\n')
    ensures forall k :: 0 <= k < |r.emitted| ==> '\n' !in r.emitted[k] && HasText(r.emitted[k])
  {
    var all := buffer + text;
    if '\n' in text then
      var lines := Split(all, '\n');
      SplitJoin(all, '\n');
      LastPiece(all, text);
      Written(lines[|lines| - 1], NonBlank(lines[..|lines| - 1]))
    else Written(all, [])
  }

  lemma {:induction false} LastPieceFrom(cur: string, s: string)
    requires '\n' in s
    ensures var l := SplitFrom(cur, s, '\n')[|SplitFrom(cur, s, '\n')| - 1];
      |l| < |s| && l == s[|s| - |l|..] && s[|s| - |l| - 1] == '\n'
    decreases |s|
  {
    var r := SplitFrom(cur, s, '\n');
    if s[0] == '\n' {
      if '\n' in s[1..] {
        LastPieceFrom([], s[1..]);
      } else {
        SplitFromNoSep([], s[1..]);
      }
    } else {
      assert '\n' in s[1..];
      LastPieceFrom(cur + [s[0]], s[1..]);
    }
  }

  lemma {:induction false} SplitFromNoSep(cur: string, s: string)
    requires '\n' !in s
    ensures SplitFrom(cur, s, '\n') == [cur + s]
    decreases |s|
  {
    if s == [] {
      assert cur + s == cur;
    } else {
      SplitFromNoSep(cur + [s[0]], s[1..]);
      assert cur + [s[0]] + s[1..] == cur + s;
    }
  }

  lemma LastPiece(all: string, text: string)
    requires '\n' in text && |text| <= |all| && all[|all| - |text|..] == text
    ensures var lines := Split(all, '\n'); var l := lines[|lines| - 1];
      |l| < |text| && l == text[|text| - |l|..] && text[|text| - |l| - 1] == '\n'
  {
    var k :| 0 <= k < |text| && text[k] == '\n';
    assert all[|all| - |text| + k] == '\n';
    LastPieceFrom([], all);
    var lines := Split(all, '\n');
    var l := lines[|lines| - 1];
    SplitJoin(all, '\n');
    assert l in lines;
    assert forall j :: |all| - |l| <= j < |all| ==> all[j] == l[j - (|all| - |l|)];
  }

  // ---------------------------------------------------------------------
  // Reference: the same buffer fed one character at a time.

  /** One character: a newline completes the buffered line, any other character extends it. */
  function Feed(buffer: string, c: char): Written {
    if c == '\n' then Written([], if HasText(buffer) then [buffer] else [])
    else Written(buffer + [c], [])
  }

  function FeedAll(buffer: string, text: string): Written
    decreases |text|
  {
    if text == [] then Written(buffer, [])
    else
      var w := Feed(buffer, text[0]);
      var rest := FeedAll(w.buffer, text[1..]);
      Written(rest.buffer, w.emitted + rest.emitted)
  }

  lemma {:induction false} FeedAllIsSplit(cur: string, text: string)
    ensures var lines := SplitFrom(cur, text, '\n');
      FeedAll(cur, text) == Written(lines[|lines| - 1], NonBlank(lines[..|lines| - 1]))
    decreases |text|
  {
    var lines := SplitFrom(cur, text, '\n');
    if text == [] {
    } else if text[0] == '\n' {
      var rest := SplitFrom([], text[1..], '\n');
      FeedAllIsSplit([], text[1..]);
      assert lines == [cur] + rest;
      assert lines[..|lines| - 1] == [cur] + rest[..|rest| - 1];
      NonBlankAppend([cur], rest[..|rest| - 1]);
      assert NonBlank([cur]) == if HasText(cur) then [cur] else [];
    } else {
      FeedAllIsSplit(cur + [text[0]], text[1..]);
    }
  }

  /** Writing a chunk hands on exactly the lines that feeding its characters
      one by one would: the non-blank lines completed by its newlines, in
      order, leaving the unfinished line in the buffer. This holds whenever
      the buffer holds no newline, which every write keeps true. */
  lemma WriteIsStreaming(buffer: string, text: string)
    requires '\n' !in buffer
    ensures Write(buffer, text) == FeedAll(buffer, text)
  {
    SplitFromSkip([], buffer, text, '\n');
    assert [] + buffer == buffer;
    FeedAllIsSplit(buffer, text);
    if '\n' !in text {
      SplitFromNoSep(buffer, text);
    }
  }

  lemma {:induction false} FeedAllAppend(buffer: string, a: string, b: string)
    ensures var w1 := FeedAll(buffer, a); var w2 := FeedAll(w1.buffer, b);
      FeedAll(buffer, a + b) == Written(w2.buffer, w1.emitted + w2.emitted)
    decreases |a|
  {
    if a == [] {
      assert a + b == b;
    } else {
      var w := Feed(buffer, a[0]);
      assert (a + b)[0] == a[0] && (a + b)[1..] == a[1..] + b;
      FeedAllAppend(w.buffer, a[1..], b);
      var w1 := FeedAll(w.buffer, a[1..]);
      var w2 := FeedAll(w1.buffer, b);
      var whole := FeedAll(w.buffer, a[1..] + b);
      assert whole == Written(w2.buffer, w1.emitted + w2.emitted);
      assert FeedAll(buffer, a + b) == Written(whole.buffer, w.emitted + whole.emitted);
      assert FeedAll(buffer, a) == Written(w1.buffer, w.emitted + w1.emitted);
      AppendAssoc(w.emitted, w1.emitted, w2.emitted);
    }
  }

  /** How the output is cut into writes does not matter: two writes hand on
      the same lines, and leave the same buffer, as one write of both. */
  lemma WritesCompose(buffer: string, a: string, b: string)
    requires '\n' !in buffer
    ensures var w1 := Write(buffer, a); var w2 := Write(w1.buffer, b);
      Write(buffer, a + b) == Written(w2.buffer, w1.emitted + w2.emitted)
  {
    var w1 := Write(buffer, a);
    assert '\n' !in w1.buffer;
    WriteIsStreaming(buffer, a);
    WriteIsStreaming(w1.buffer, b);
    WriteIsStreaming(buffer, a + b);
    FeedAllAppend(buffer, a, b);
  }
}

=== FILE: loghandler.dfy ===
/** The server's log-line handler (`SSELogHandler` in app.py): it cleans a log
    line, classifies it, extracts its content and turns it into a task step
    with a number taken from a counter.

    The two prefix patterns and the thought pattern are modelled by greedy
    scanners, each proved to find exactly the matches described by a reference
    predicate; the fourth pattern, `Result: (.*)` with DOTALL, is a split at
    the first marker. */
module LogHandler {

  import opened Wrappers
  import opened Text
  import Tasks

  // ---------------------------------------------------------------------
  // `^\d{4}-\d{2}-\d{2} \d{2}:\d{2}:\d{2}.\d{3} \| \w+ +\| `

  predicate IsBlankChar(c: char) { c == ' ' }

  /** The fixed-width head of the timestamp pattern, its first 26 characters.
      The unescaped `.` before the milliseconds matches anything but a newline. */
  predicate StampHead(h: string)
    requires |h| >= 26
  {
    && AllFrom(h, 0, 4, IsDigit) && h[4] == '-' && AllFrom(h, 5, 7, IsDigit) && h[7] == '-'
    && AllFrom(h, 8, 10, IsDigit) && h[10] == ' ' && AllFrom(h, 11, 13, IsDigit) && h[13] == ':'
    && AllFrom(h, 14, 16, IsDigit) && h[16] == ':' && AllFrom(h, 17, 19, IsDigit) && h[19] != '\n'
    && AllFrom(h, 20, 23, IsDigit) && h[23] == ' ' && h[24] == '|' && h[25] == ' '
  }

  /** `p` is matched in full by the timestamp pattern. */
  ghost predicate IsStamp(p: string) {
    && |p| >= 30 && StampHead(p) && p[|p| - 2] == '|' && p[|p| - 1] == ' '
    && exists i :: 26 < i < |p| - 2 && AllFrom(p, 26, i, IsWordChar) && AllFrom(p, i, |p| - 2, IsBlankChar)
  }

  /** The length of the timestamp match at the start of `s`, if there is one. */
  function MatchStamp(s: string): (r: Option<nat>)
    ensures r.Some? ==> r.value <= |s|
  {
    if |s| < 26 || !StampHead(s) then None
    else
      var i := Run(s, 26, IsWordChar);
      var j := Run(s, i, IsBlankChar);
      if i > 26 && j > i && j + 2 <= |s| && s[j] == '|' && s[j + 1] == ' ' then Some(j + 2) else None
  }

  lemma StampHeadPrefix(s: string, n: nat)
    requires 26 <= n <= |s|
    ensures StampHead(s[..n]) <==> StampHead(s)
  {
    assert forall k :: 0 <= k < 26 ==> s[..n][k] == s[k];
    AllFromPrefix(s, n, 0, 4, IsDigit);
    AllFromPrefix(s, n, 5, 7, IsDigit);
    AllFromPrefix(s, n, 8, 10, IsDigit);
    AllFromPrefix(s, n, 11, 13, IsDigit);
    AllFromPrefix(s, n, 14, 16, IsDigit);
    AllFromPrefix(s, n, 17, 19, IsDigit);
    AllFromPrefix(s, n, 20, 23, IsDigit);
  }

  /** The scanner finds a timestamp prefix exactly when the pattern matches
      one, and then it finds that one: the match is unique. */
  lemma MatchStampExact(s: string)
    ensures MatchStamp(s).Some? ==> IsStamp(s[..MatchStamp(s).value])
    ensures forall n :: 0 <= n <= |s| && IsStamp(s[..n]) ==> MatchStamp(s) == Some(n)
  {
    if MatchStamp(s).Some? {
      var n := MatchStamp(s).value;
      var p := s[..n];
      var i := Run(s, 26, IsWordChar);
      StampHeadPrefix(s, n);
      AllFromPrefix(s, n, 26, i, IsWordChar);
      AllFromPrefix(s, n, i, n - 2, IsBlankChar);
      assert AllFrom(p, 26, i, IsWordChar) && AllFrom(p, i, |p| - 2, IsBlankChar);
    }
    forall n | 0 <= n <= |s| && IsStamp(s[..n])
      ensures MatchStamp(s) == Some(n)
    {
      var p := s[..n];
      var i :| 26 < i < |p| - 2 && AllFrom(p, 26, i, IsWordChar) && AllFrom(p, i, |p| - 2, IsBlankChar);
      StampHeadPrefix(s, n);
      AllFromPrefix(s, n, 26, i, IsWordChar);
      AllFromPrefix(s, n, i, n - 2, IsBlankChar);
      assert s[i] == p[i];
      RunUnique(s, 26, IsWordChar, i);
      assert s[n - 2] == p[n - 2];
      RunUnique(s, i, IsBlankChar, n - 2);
    }
  }

  // ---------------------------------------------------------------------
  // `^[\w\.]+:\w+:\d+ - `

  predicate IsModuleChar(c: char) { IsWordChar(c) || c == '.' }

  /** `p` is matched in full by the module pattern. */
  ghost predicate IsModuleTag(p: string) {
    && |p| >= 8 && p[|p| - 3] == ' ' && p[|p| - 2] == '-' && p[|p| - 1] == ' '
    && exists a, b :: 0 < a && a + 1 < b && b + 1 < |p| - 3 && p[a] == ':' && p[b] == ':'
         && AllFrom(p, 0, a, IsModuleChar) && AllFrom(p, a + 1, b, IsWordChar) && AllFrom(p, b + 1, |p| - 3, IsDigit)
  }

  function MatchModule(s: string): (r: Option<nat>)
    ensures r.Some? ==> r.value <= |s|
  {
    var a := Run(s, 0, IsModuleChar);
    if a == 0 || a == |s| || s[a] != ':' then None
    else
      var b := Run(s, a + 1, IsWordChar);
      if b == a + 1 || b == |s| || s[b] != ':' then None
      else
        var c := Run(s, b + 1, IsDigit);
        if c == b + 1 || c + 3 > |s| || s[c] != ' ' || s[c + 1] != '-' || s[c + 2] != ' ' then None
        else Some(c + 3)
  }

  /** The scanner finds a module prefix exactly when the pattern matches one,
      and then it finds that one. */
  lemma MatchModuleExact(s: string)
    ensures MatchModule(s).Some? ==> IsModuleTag(s[..MatchModule(s).value])
    ensures forall n :: 0 <= n <= |s| && IsModuleTag(s[..n]) ==> MatchModule(s) == Some(n)
  {
    if MatchModule(s).Some? {
      var n := MatchModule(s).value;
      var p := s[..n];
      var a := Run(s, 0, IsModuleChar);
      var b := Run(s, a + 1, IsWordChar);
      AllFromPrefix(s, n, 0, a, IsModuleChar);
      AllFromPrefix(s, n, a + 1, b, IsWordChar);
      AllFromPrefix(s, n, b + 1, n - 3, IsDigit);
      assert p[a] == ':' && p[b] == ':';
      assert AllFrom(p, 0, a, IsModuleChar) && AllFrom(p, a + 1, b, IsWordChar) && AllFrom(p, b + 1, |p| - 3, IsDigit);
    }
    forall n | 0 <= n <= |s| && IsModuleTag(s[..n])
      ensures MatchModule(s) == Some(n)
    {
      ModuleComplete(s, n);
    }
  }

  lemma ModuleComplete(s: string, n: nat)
    requires n <= |s| && IsModuleTag(s[..n])
    ensures MatchModule(s) == Some(n)
  {
    var p := s[..n];
    var a, b :| 0 < a && a + 1 < b && b + 1 < |p| - 3 && p[a] == ':' && p[b] == ':'
       && AllFrom(p, 0, a, IsModuleChar) && AllFrom(p, a + 1, b, IsWordChar) && AllFrom(p, b + 1, |p| - 3, IsDigit);
    AllFromPrefix(s, n, 0, a, IsModuleChar);
    AllFromPrefix(s, n, a + 1, b, IsWordChar);
    AllFromPrefix(s, n, b + 1, n - 3, IsDigit);
    assert s[n - 3] == p[n - 3] && s[n - 2] == p[n - 2] && s[n - 1] == p[n - 1];
    ModuleCompleteAt(s, n, a, b);
  }

  lemma ModuleCompleteAt(s: string, n: nat, a: nat, b: nat)
    requires n <= |s| && 0 < a && a + 1 < b && b + 1 < n - 3 && s[a] == ':' && s[b] == ':'
    requires AllFrom(s, 0, a, IsModuleChar) && AllFrom(s, a + 1, b, IsWordChar) && AllFrom(s, b + 1, n - 3, IsDigit)
    requires s[n - 3] == ' ' && s[n - 2] == '-' && s[n - 1] == ' '
    ensures MatchModule(s) == Some(n)
  {
    RunUnique(s, 0, IsModuleChar, a);
    RunUnique(s, a + 1, IsWordChar, b);
    RunUnique(s, b + 1, IsDigit, n - 3);
  }

  /** `re.sub` with an anchored pattern: the match at the start, if any, is removed. */
  function StripStamp(s: string): (r: string)
    ensures r == s || (|r| < |s| && r == s[|s| - |r|..] && IsStamp(s[..|s| - |r|]))
    ensures forall n {:trigger IsStamp(s[..n])} :: 0 <= n <= |s| && IsStamp(s[..n]) ==> r == s[n..]
  {
    MatchStampExact(s);
    match MatchStamp(s)
    case Some(n) => s[n..]
    case None => s
  }

  function StripModule(s: string): (r: string)
    ensures r == s || (|r| < |s| && r == s[|s| - |r|..] && IsModuleTag(s[..|s| - |r|]))
    ensures forall n {:trigger IsModuleTag(s[..n])} :: 0 <= n <= |s| && IsModuleTag(s[..n]) ==> r == s[n..]
  {
    MatchModuleExact(s);
    match MatchModule(s)
    case Some(n) => s[n..]
    case None => s
  }

  /** The line with its timestamp prefix removed, then its module prefix. */
  function Clean(line: string): string {
    StripModule(StripStamp(line))
  }

  /** Whatever the timestamp, level, module tag and message, the formatted
      line cleans to the message alone. */
  lemma CleanFormatted(stamp: string, tag: string, msg: string)
    requires IsStamp(stamp) && IsModuleTag(tag)
    ensures Clean(stamp + tag + msg) == msg
  {
    var s := stamp + tag + msg;
    assert s[..|stamp|] == stamp;
    assert s[|stamp|..] == tag + msg;
    assert (tag + msg)[..|tag|] == tag;
  }

  /** Prefixes are removed only where they start the line: a line that begins
      with neither is left exactly as it is. */
  lemma CleanOnlyAtStart(line: string)
    requires forall n :: 0 <= n <= |line| ==> !IsStamp(line[..n]) && !IsModuleTag(line[..n])
    ensures Clean(line) == line
  {
  }

  // ---------------------------------------------------------------------
  // Classification.

  datatype Kind = Think | Tool | Act | Error | Log {
    /** The step type sent to the client. */
    function Name(): string {
      match this
      case Think => "think"
      case Tool => "tool"
      case Act => "act"
      case Error => "error"
      case Log => "log"
    }
  }

  /** No line is ever given the step type that ends a stream. */
  lemma NameIsNotComplete(k: Kind)
    ensures k.Name() != "complete"
  {
    assert |k.Name()| < |"complete"|;
  }

  const Sparkles := "\U{2728}"
  const HammerAndWrench := "\U{1f6e0}\U{fe0f}"
  const Wrench := "\U{1f527}"
  const DirectHit := "\U{1f3af}"

  predicate ThinkMarked(s: string) { Contains(s, Sparkles) || Contains(Lower(s), "thoughts:") }

  predicate ToolMarked(s: string) {
    || Contains(s, HammerAndWrench) || Contains(Lower(s), "selected tool")
    || Contains(s, Wrench) || Contains(s, "Activating tool:")
  }

  /** `'Tool .* completed' in s` is a plain substring test: the characters
      `.` and `*` must appear literally. */
  predicate ActMarked(s: string) { Contains(s, DirectHit) || Contains(s, "Tool .* completed") }

  predicate ErrorMarked(s: string) { Contains(Lower(s), "error") || Contains(Lower(s), "failed") }

  /** The first rule of the chain think, tool, act, error that the line meets; `log` otherwise. */
  function Classify(s: string): (k: Kind)
  {
    if ThinkMarked(s) then Think
    else if ToolMarked(s) then Tool
    else if ActMarked(s) then Act
    else if ErrorMarked(s) then Error
    else Log
  }

  /** Each kind is chosen exactly when its rule holds and no earlier rule does;
      in particular a line is `log` only when it carries none of the markers. */
  lemma ClassifyIsPriorityChain(s: string)
    ensures Classify(s) == Think <==> ThinkMarked(s)
    ensures Classify(s) == Tool <==> !ThinkMarked(s) && ToolMarked(s)
    ensures Classify(s) == Act <==> !ThinkMarked(s) && !ToolMarked(s) && ActMarked(s)
    ensures Classify(s) == Error <==> !ThinkMarked(s) && !ToolMarked(s) && !ActMarked(s) && ErrorMarked(s)
    ensures Classify(s) == Log <==> !ThinkMarked(s) && !ToolMarked(s) && !ActMarked(s) && !ErrorMarked(s)
  {
  }

  // ---------------------------------------------------------------------
  // Content extraction.

  predicate NotNewline(c: char) { c != '\n' }

  /** What `(.*)` captures from position `k` without DOTALL: up to the next newline. */
  function RestOfLine(s: string, k: nat): (r: string)
    requires k <= |s|
    ensures k + |r| <= |s| && s[k..k + |r|] == r
    ensures '\n' !in r
    ensures k + |r| == |s| || s[k + |r|] == '\n'
  {
    var n := Run(s, k, NotNewline);
    assert forall i :: 0 <= i < n - k ==> s[k..n][i] == s[k + i];
    s[k..n]
  }

  const ThoughtsMarker := "'s thoughts: "

  /** `✨ \w+'s thoughts: ` matches at position `p`, with the word ending at `w`. */
  ghost predicate ThoughtAt(s: string, p: nat, w: nat) {
    && p + 2 < w && w + |ThoughtsMarker| <= |s|
    && s[p] == Sparkles[0] && s[p + 1] == ' '
    && AllFrom(s, p + 2, w, IsWordChar) && s[w..w + |ThoughtsMarker|] == ThoughtsMarker
  }

  /** The end of the agent-name word when the pattern matches at `p`. */
  function ThoughtWordEnd(s: string, p: nat): (r: Option<nat>)
    ensures r.Some? ==> ThoughtAt(s, p, r.value)
    ensures r.None? ==> forall w: nat :: !ThoughtAt(s, p, w)
  {
    if p + 2 <= |s| && s[p] == Sparkles[0] && s[p + 1] == ' ' then
      var w := Run(s, p + 2, IsWordChar);
      assert forall w': nat :: ThoughtAt(s, p, w') ==> w' == w by {
        forall w': nat | ThoughtAt(s, p, w') ensures w' == w {
          assert s[w'..w' + |ThoughtsMarker|][0] == '\'';
          RunUnique(s, p + 2, IsWordChar, w');
        }
      }
      if w > p + 2 && w + |ThoughtsMarker| <= |s| && s[w..w + |ThoughtsMarker|] == ThoughtsMarker then Some(w)
      else None
    else None
  }

  /** The agent-name word of a match is determined by where the match starts. */
  lemma ThoughtWordUnique(s: string, p: nat, w: nat)
    requires ThoughtAt(s, p, w)
    ensures ThoughtWordEnd(s, p) == Some(w)
  {
    assert s[w..w + |ThoughtsMarker|][0] == '\'';
    RunUnique(s, p + 2, IsWordChar, w);
  }

  /** The leftmost position at or after `from` where the thought pattern matches. */
  function FirstThought(s: string, from: nat): (r: Option<nat>)
    requires from <= |s|
    ensures r.Some? ==> from <= r.value && ThoughtWordEnd(s, r.value).Some?
    ensures r.Some? ==> forall q: nat, v: nat :: from <= q < r.value ==> !ThoughtAt(s, q, v)
    ensures r.None? ==> forall q: nat, v: nat :: from <= q ==> !ThoughtAt(s, q, v)
    decreases |s| - from
  {
    if ThoughtWordEnd(s, from).Some? then Some(from)
    else if from == |s| then None
    else FirstThought(s, from + 1)
  }

  /** `re.search(r'✨ \w+\'s thoughts: (.*)', s)`: the captured text of the
      leftmost match, or the line unchanged when there is none. */
  function ExtractThought(s: string): string {
    match FirstThought(s, 0)
    case Some(p) => RestOfLine(s, ThoughtWordEnd(s, p).value + |ThoughtsMarker|)
    case None => s
  }

  /** A think line is replaced by what follows the leftmost `✨ <word>'s thoughts: `
      up to the end of that line; without such a match it is unchanged. */
  lemma ExtractThoughtSpec(s: string)
    ensures (forall p: nat, w: nat :: !ThoughtAt(s, p, w)) ==> ExtractThought(s) == s
    ensures forall p: nat, w: nat :: ThoughtAt(s, p, w) && (forall q: nat, v: nat :: q < p ==> !ThoughtAt(s, q, v)) ==>
      ExtractThought(s) == RestOfLine(s, w + |ThoughtsMarker|)
  {
    forall p: nat, w: nat | ThoughtAt(s, p, w) && (forall q: nat, v: nat :: q < p ==> !ThoughtAt(s, q, v))
      ensures ExtractThought(s) == RestOfLine(s, w + |ThoughtsMarker|)
    {
      ThoughtWordUnique(s, p, w);
      var f := FirstThought(s, 0);
      assert f.Some?;
      assert ThoughtAt(s, f.value, ThoughtWordEnd(s, f.value).value);
      assert f.value == p;
    }
  }

  const ResultMarker := "Result: "

  /** `re.search(r'Result: (.*)', s, re.DOTALL)`: everything after the first
      `Result: `, newlines included, or the line unchanged. */
  function ExtractResult(s: string): (r: string)
    ensures Contains(s, ResultMarker) ==>
      exists i :: 0 <= i <= |s| - |ResultMarker| && s == s[..i] + ResultMarker + r
        && !Contains(s[..i + |ResultMarker| - 1], ResultMarker)
    ensures !Contains(s, ResultMarker) ==> r == s
  {
    match Find(s, ResultMarker)
    case Some(i) =>
      var r := s[i + |ResultMarker|..];
      assert s == s[..i] + ResultMarker + r;
      assert !Contains(s[..i + |ResultMarker| - 1], ResultMarker) by {
        var t := s[..i + |ResultMarker| - 1];
        forall j: nat | j + |ResultMarker| <= |t| ensures !OccursAt(t, ResultMarker, j) {
          assert t[j..j + |ResultMarker|] == s[j..j + |ResultMarker|];
          assert !OccursAt(s, ResultMarker, j);
        }
      }
      r
    case None => s
  }

  /** The content kept from a cleaned line: narrowed for think and act lines. */
  function Narrow(c: string): string {
    match Classify(c)
    case Think => ExtractThought(c)
    case Act => ExtractResult(c)
    case _ => c
  }

  /** The step content for a log line. */
  function Content(line: string): string {
    Narrow(Clean(line))
  }

  /** A message logged through loguru's format is classified and narrowed
      exactly as the same message printed bare, whatever its timestamp,
      level and module tag, as long as the message itself does not start
      with such a prefix. */
  lemma FormattedAgreesWithBare(stamp: string, tag: string, msg: string)
    requires IsStamp(stamp) && IsModuleTag(tag)
    requires forall n :: 0 <= n <= |msg| ==> !IsStamp(msg[..n]) && !IsModuleTag(msg[..n])
    ensures Classify(Clean(stamp + tag + msg)) == Classify(Clean(msg))
    ensures Content(stamp + tag + msg) == Content(msg)
  {
    CleanFormatted(stamp, tag, msg);
    CleanOnlyAtStart(msg);
  }

  // ---------------------------------------------------------------------
  // The handler: step numbering and dispatch to the task manager.

  /** A message handed to the handler: a log line, a structured record whose
      keys may be absent, or any other value (which the handler ignores). */
  datatype Message =
    | Line(text: string)
    | Record(kind: Option<string>, message: Option<string>, step: Option<int>)
    | Other

  /** The `update_task_step` call a message turns into. A log line's content
      and kind are worked out from its text. */
  datatype Call =
    | LineCall(step: int, line: string)
    | RecordCall(step: int, message: string, recordKind: string)
  {
    /** The step content passed to `update_task_step`. */
    function Result(): string {
      match this
      case LineCall(_, line) => Content(line)
      case RecordCall(_, message, _) => message
    }

    /** The step kind passed to `update_task_step`. */
    function Kind(): string {
      match this
      case LineCall(_, line) => Classify(Clean(line)).Name()
      case RecordCall(_, _, kind) => kind
    }
  }

  datatype Handled = Handled(counter: int, call: Option<Call>)

  function OrElse<T>(o: Option<T>, d: T): T {
    match o
    case Some(v) => v
    case None => d
  }

  /** `SSELogHandler.__call__`, with `counter` its `step_counter`. */
  function Handle(counter: int, msg: Message): (r: Handled)
    ensures msg.Other? <==> r.call.None?
    ensures r.counter == if msg.Other? then counter else counter + 1
    ensures msg.Line? ==> r.call == Some(LineCall(counter + 1, msg.text))
    ensures msg.Record? ==> r.call == Some(RecordCall(
      if msg.step.Some? then msg.step.value else counter,
      OrElse(msg.message, ""), OrElse(msg.kind, "log")))
  {
    match msg
    case Line(text) =>
      Handled(counter + 1, Some(LineCall(counter + 1, text)))
    case Record(kind, message, step) =>
      Handled(counter + 1, Some(RecordCall(OrElse(step, counter), OrElse(message, ""), OrElse(kind, "log"))))
    case Other => Handled(counter, None)
  }

  /** Handles messages in order, collecting the calls made. */
  function HandleAll(counter: int, msgs: seq<Message>): (r: (int, seq<Call>))
    decreases |msgs|
  {
    if msgs == [] then (counter, [])
    else
      var h := Handle(counter, msgs[0]);
      var rest := HandleAll(h.counter, msgs[1..]);
      (rest.0, (if h.call.Some? then [h.call.value] else []) + rest.1)
  }

  /** Log lines are numbered consecutively from the counter: starting from a
      fresh handler, the n-th line becomes step n. */
  lemma {:induction false} LinesNumberedConsecutively(counter: int, msgs: seq<Message>)
    requires forall i :: 0 <= i < |msgs| ==> msgs[i].Line?
    ensures HandleAll(counter, msgs).0 == counter + |msgs|
    ensures |HandleAll(counter, msgs).1| == |msgs|
    ensures forall i :: 0 <= i < |msgs| ==> HandleAll(counter, msgs).1[i].step == counter + i + 1
    decreases |msgs|
  {
    if msgs != [] {
      var h := Handle(counter, msgs[0]);
      assert h.counter == counter + 1 && h.call.Some? && h.call.value.step == counter + 1;
      assert forall i :: 0 <= i < |msgs[1..]| ==> msgs[1..][i] == msgs[i + 1];
      LinesNumberedConsecutively(counter + 1, msgs[1..]);
      var rest := HandleAll(counter + 1, msgs[1..]);
      var all := HandleAll(counter, msgs);
      assert all == (rest.0, [h.call.value] + rest.1);
      forall i | 0 <= i < |msgs| ensures all.1[i].step == counter + i + 1 {
        if i > 0 {
          assert all.1[i] == rest.1[i - 1];
        }
      }
    }
  }

  /** Every message except an ignored one moves the counter by exactly one. */
  lemma {:induction false} CounterCountsHandled(counter: int, msgs: seq<Message>)
    ensures HandleAll(counter, msgs).0 == counter + |HandleAll(counter, msgs).1|
    decreases |msgs|
  {
    if msgs != [] {
      CounterCountsHandled(Handle(counter, msgs[0]).counter, msgs[1..]);
    }
  }

  /** A message delivered to the handler of task `id`: the call it makes is
      applied to the task manager. */
  function Deliver(m: Tasks.Manager, id: Tasks.TaskId, counter: int, msg: Message): (r: (Tasks.Manager, int))
    requires Tasks.Valid(m)
    ensures Tasks.Valid(r.0)
    ensures msg.Other? ==> r == (m, counter)
    ensures !msg.Other? ==> r.1 == counter + 1
    ensures r.0.tasks.Keys == m.tasks.Keys && r.0.order == m.order
    ensures forall k :: k != id && k in m.tasks ==> r.0.tasks[k] == m.tasks[k] && r.0.queues[k] == m.queues[k]
  {
    var h := Handle(counter, msg);
    match h.call
    case Some(c) =>
      Tasks.UpdateTouchesOnly(m, id, c.step, c.Result(), c.Kind());
      (Tasks.UpdateTaskStep(m, id, c.step, c.Result(), c.Kind()), h.counter)
    case None => (m, h.counter)
  }

  /** A log line delivered for a known task adds exactly one step, numbered
      one past the counter, with the line's content and kind, and leaves the
      task's status alone. */
  lemma DeliverLine(m: Tasks.Manager, id: Tasks.TaskId, counter: int, text: string)
    requires Tasks.Valid(m) && id in m.tasks
    ensures var r := Deliver(m, id, counter, Line(text)).0;
      && r.tasks[id].steps == m.tasks[id].steps + [Tasks.Step(counter + 1, Content(text), Classify(Clean(text)).Name())]
      && r.tasks[id].status == m.tasks[id].status
      && |r.queues[id]| == |m.queues[id]| + 2
  {
    var h := Handle(counter, Line(text));
    var c := LineCall(counter + 1, text);
    assert h.call == Some(c);
    var r := Tasks.UpdateTaskStep(m, id, c.step, c.Result(), c.Kind());
    assert Deliver(m, id, counter, Line(text)).0 == r;
  }

  // ---------------------------------------------------------------------
  // The lines the simulated run in main.py logs, and one as loguru formats it.

  const ThoughtLine := "\U{2728} TaskAgent's thoughts: " + "Analyzing the user's request"
  const ToolLine := "\U{1f6e0}\U{fe0f} TaskAgent selected " + "Tool: WebSearch"
  const ActLine := "\U{1f3af} Tool execution" + ": Searching the web for information"
  const FormattedThoughtLine := "2025-03-10 14:02:11.123 | INFO     | " + "__main__:execute_task:28 - " + ThoughtLine

  lemma NoNewlineAllFrom(s: string, lo: nat)
    requires lo <= |s| && '\n' !in s
    ensures AllFrom(s, lo, |s|, NotNewline)
  {
    forall k | lo <= k < |s| ensures NotNewline(s[k]) { assert s[k] in s; }
  }

  /** A line that does not start with a digit or a module character has no
      prefix to strip. */
  lemma CleanKeepsUnprefixed(s: string)
    requires |s| > 0 && !IsModuleChar(s[0])
    ensures Clean(s) == s
  {
    RunUnique(s, 0, IsModuleChar, 0);
  }

  /** The thought pattern matches the thought line at its start. */
  lemma ThoughtLineMatch()
    ensures ThoughtAt(ThoughtLine, 0, 11)
    ensures FirstThought(ThoughtLine, 0) == Some(0) && ThoughtWordEnd(ThoughtLine, 0) == Some(11)
  {
    var s := ThoughtLine;
    RunUnique(s, 2, IsWordChar, 11);
    assert s[11..24] == ThoughtsMarker;
    ThoughtWordUnique(s, 0, 11);
  }

  lemma ThoughtLineRest()
    ensures RestOfLine(ThoughtLine, 24) == "Analyzing the user's request"
  {
    var s := ThoughtLine;
    NoNewlineAllFrom(s, 24);
    RunUnique(s, 24, NotNewline, |s|);
    assert s[24..|s|] == "Analyzing the user's request";
  }

  /** The thought line is `think` and its content is the thought itself. */
  lemma ThoughtLineIsThink()
    ensures Clean(ThoughtLine) == ThoughtLine
    ensures Classify(Clean(ThoughtLine)) == Think
    ensures Content(ThoughtLine) == "Analyzing the user's request"
  {
    var s := ThoughtLine;
    CleanKeepsUnprefixed(s);
    assert OccursAt(s, Sparkles, 0);
    ThoughtLineMatch();
    ThoughtLineRest();
    assert ExtractThought(s) == RestOfLine(s, 24);
  }

  lemma NotMarkedBy(s: string, p: string, k: nat, c: char)
    requires k < |p| && p[k] == c && c !in s
    ensures !Contains(s, p)
  {
    if Contains(s, p) { ContainsHasChar(s, p, k); }
  }

  lemma NotMarkedInLower(s: string, p: string, k: nat, c: char)
    requires k < |p| && p[k] == c && c !in s
    requires 'a' <= c <= 'z' ==> (c as int - 32) as char !in s
    ensures !Contains(Lower(s), p)
  {
    if Contains(Lower(s), p) { ContainsHasChar(Lower(s), p, k); InLower(s, c); }
  }

  lemma ContentOfKept(s: string)
    requires Clean(s) == s && Classify(s) != Think && Classify(s) != Act
    ensures Content(s) == s
  {
  }

  lemma ToolLineNoSparkles()
    ensures !Contains(ToolLine, Sparkles)
  {
    NotMarkedBy(ToolLine, Sparkles, 0, Sparkles[0]);
  }

  lemma ToolLineNotThought()
    ensures !Contains(Lower(ToolLine), "thoughts:")
  {
    assert 'u' !in ToolLine && 'U' !in ToolLine;
    NotMarkedInLower(ToolLine, "thoughts:", 3, 'u');
  }

  lemma ToolLineMarkers()
    ensures !ThinkMarked(ToolLine) && ToolMarked(ToolLine)
  {
    ToolLineNoSparkles();
    ToolLineNotThought();
    assert OccursAt(ToolLine, HammerAndWrench, 0);
  }

  /** The tool-selection line is `tool` and is kept whole. */
  lemma ToolLineIsTool()
    ensures Classify(Clean(ToolLine)) == Tool
    ensures Content(ToolLine) == ToolLine
  {
    CleanKeepsUnprefixed(ToolLine);
    ToolLineMarkers();
    ContentOfKept(ToolLine);
  }

  const ActHead := "\U{1f3af} Tool execution"
  const ActTail := ": Searching the web for information"

  lemma ActLineColon(k: nat)
    requires k < |ActLine| && ActLine[k] == ':'
    ensures k == |ActHead|
  {
    assert ActLine == ActHead + ActTail;
  }

  lemma ActLineNotThought()
    ensures !Contains(Lower(ActLine), "thoughts:")
  {
    if Contains(Lower(ActLine), "thoughts:") {
      var t := Lower(ActLine);
      var i: nat :| i + 9 <= |t| && OccursAt(t, "thoughts:", i);
      assert t[i..i + 9][8] == ':' && t[i..i + 9][7] == 's';
      assert ActLine[i + 8] == ':';
      ActLineColon(i + 8);
    }
  }

  lemma ActLineNoHammer()
    ensures !Contains(ActLine, HammerAndWrench)
  {
    NotMarkedBy(ActLine, HammerAndWrench, 0, HammerAndWrench[0]);
  }

  lemma ActLineNotSelected()
    ensures !Contains(Lower(ActLine), "selected tool")
  {
    assert 'd' !in ActLine && 'D' !in ActLine;
    NotMarkedInLower(ActLine, "selected tool", 7, 'd');
  }

  lemma ActLineNoWrench()
    ensures !Contains(ActLine, Wrench)
  {
    NotMarkedBy(ActLine, Wrench, 0, Wrench[0]);
  }

  lemma ActLineNotActivating()
    ensures !Contains(ActLine, "Activating tool:")
  {
    assert 'A' !in ActLine;
    NotMarkedBy(ActLine, "Activating tool:", 0, 'A');
  }

  lemma ActLineNoSparkles()
    ensures !Contains(ActLine, Sparkles)
  {
    NotMarkedBy(ActLine, Sparkles, 0, Sparkles[0]);
  }

  lemma ActLineNoResult()
    ensures !Contains(ActLine, ResultMarker)
  {
    assert 'R' !in ActLine;
    NotMarkedBy(ActLine, ResultMarker, 0, 'R');
  }

  lemma ActLineMarkers()
    ensures !ThinkMarked(ActLine) && !ToolMarked(ActLine) && ActMarked(ActLine)
    ensures !Contains(ActLine, ResultMarker)
  {
    ActLineNoSparkles();
    ActLineNotThought();
    ActLineNoHammer();
    ActLineNotSelected();
    ActLineNoWrench();
    ActLineNotActivating();
    assert OccursAt(ActLine, DirectHit, 0);
    ActLineNoResult();
  }

  /** The tool-result line is `act` and, having no `Result: `, is kept whole. */
  lemma ActLineIsAct()
    ensures Classify(Clean(ActLine)) == Act
    ensures Content(ActLine) == ActLine
  {
    CleanKeepsUnprefixed(ActLine);
    ActLineMarkers();
  }

  const StampText := "2025-03-10 14:02:11.123 | "

  lemma FormattedHead()
    ensures |FormattedThoughtLine| >= 26 && StampHead(FormattedThoughtLine)
  {
    assert StampHead(StampText);
    assert FormattedThoughtLine[..26] == StampText;
    StampHeadPrefix(FormattedThoughtLine, 26);
  }

  lemma FormattedStamp()
    ensures StripStamp(FormattedThoughtLine) == "__main__:execute_task:28 - " + ThoughtLine
  {
    var s := FormattedThoughtLine;
    FormattedHead();
    RunUnique(s, 26, IsWordChar, 30);
    RunUnique(s, 30, IsBlankChar, 35);
    assert MatchStamp(s) == Some(37);
  }

  lemma FormattedModule()
    ensures StripModule("__main__:execute_task:28 - " + ThoughtLine) == ThoughtLine
  {
    var u := "__main__:execute_task:28 - " + ThoughtLine;
    RunUnique(u, 0, IsModuleChar, 8);
    RunUnique(u, 9, IsWordChar, 21);
    RunUnique(u, 22, IsDigit, 24);
    assert MatchModule(u) == Some(27);
    assert u[27..] == ThoughtLine;
  }

  /** A line as loguru formats it loses its timestamp and module prefixes
      and is then handled like the bare line. */
  lemma FormattedLineIsCleaned()
    ensures Clean(FormattedThoughtLine) == ThoughtLine
    ensures Content(FormattedThoughtLine) == "Analyzing the user's request"
  {
    FormattedStamp();
    FormattedModule();
    ThoughtLineIsThink();

  }
}

=== FILE: runner.dfy ===
/** The bookkeeping of `run_task` in app.py: the task is marked running, a
    first log step is recorded, the log handler turns each message it
    receives into a step, and the agent flow's outcome ends the task as
    completed or failed; a failure to register the handler fails the task
    before the flow starts. The agent flow itself is outside this model: its
    log messages and its outcome are parameters. */
module Runner {

  import opened Wrappers
  import opened Tasks
  import LogHandler
  import Text

  /** How a run ended: the agent flow returned a result, hit the one-hour
      timeout, or raised an exception carrying a message; or, before the
      flow started, registering the log handler raised (`logger.add` at
      app.py:185, the `Raised` case of `AsyncLogger.Add`), which the outer
      `except` of `run_task` turns into a failed task. */
  datatype FlowOutcome = Finished(result: string) | TimedOut | Raised(message: string) | SetupFailed(message: string)

  const StartingPrefix := "Starting task execution: "
  const TimeoutMessage := "Task execution timed out after 1 hour"
  const ExecutionFailedPrefix := "Task execution failed: "
  const SetupFailedPrefix := "Error in task setup: "
  const ResultStep := 999

  function StepOf(c: LogHandler.Call): Step {
    Step(c.step, c.Result(), c.Kind())
  }

  function StepsOf(cs: seq<LogHandler.Call>): (r: seq<Step>)
    ensures |r| == |cs|
    ensures forall i :: 0 <= i < |cs| ==> r[i] == StepOf(cs[i])
  {
    Text.Map(StepOf, cs)
  }

  /** Each message handed to the task's log handler, in order. */
  function DeliverAll(m: Manager, id: TaskId, counter: int, msgs: seq<LogHandler.Message>): (r: (Manager, int))
    requires Valid(m)
    ensures Valid(r.0)
    ensures r.0.tasks.Keys == m.tasks.Keys && r.0.order == m.order
    ensures forall k :: k != id && k in m.tasks ==> r.0.tasks[k] == m.tasks[k] && r.0.queues[k] == m.queues[k]
    decreases |msgs|
  {
    if msgs == [] then (m, counter)
    else
      var d := LogHandler.Deliver(m, id, counter, msgs[0]);
      DeliverAll(d.0, id, d.1, msgs[1..])
  }

  /** The task's status after the flow's outcome. */
  function FinalStatus(outcome: FlowOutcome): string {
    match outcome
    case Finished(_) => Completed
    case TimedOut => FailedPrefix + TimeoutMessage
    case Raised(e) => FailedPrefix + ExecutionFailedPrefix + e
    case SetupFailed(e) => FailedPrefix + SetupFailedPrefix + e
  }

  /** The last event queued for the task. */
  function FinalEvent(outcome: FlowOutcome): Event {
    match outcome
    case Finished(_) => CompleteEvent
    case TimedOut => ErrorEvent(TimeoutMessage)
    case Raised(e) => ErrorEvent(ExecutionFailedPrefix + e)
    case SetupFailed(e) => ErrorEvent(SetupFailedPrefix + e)
  }

  function Finish(m: Manager, id: TaskId, outcome: FlowOutcome): (r: Manager)
    requires Valid(m)
    ensures Valid(r)
    ensures r.tasks.Keys == m.tasks.Keys && r.order == m.order
    ensures forall k :: k != id && k in m.tasks ==> r.tasks[k] == m.tasks[k] && r.queues[k] == m.queues[k]
  {
    match outcome
    case Finished(result) => CompleteTask(UpdateTaskStep(m, id, ResultStep, result, "result"), id)
    case TimedOut => FailTask(m, id, TimeoutMessage)
    case Raised(e) => FailTask(m, id, ExecutionFailedPrefix + e)
    case SetupFailed(e) => FailTask(m, id, SetupFailedPrefix + e)
  }

  /** What `run_task` does before the flow's outcome is known: mark the task
      running, log the start notice as step 0, and hand the flow's log
      messages to a fresh log handler. */
  function Prepare(m: Manager, id: TaskId, prompt: string, logs: seq<LogHandler.Message>): (r: Manager)
    requires Valid(m)
    ensures Valid(r)
    ensures r.tasks.Keys == m.tasks.Keys && r.order == m.order
    ensures forall k :: k != id && k in m.tasks ==> r.tasks[k] == m.tasks[k] && r.queues[k] == m.queues[k]
  {
    var m1 := StartTask(m, id);
    var m2 := UpdateTaskStep(m1, id, 0, StartingPrefix + prompt, "log");
    DeliverAll(m2, id, 0, logs).0
  }

  /** `run_task(id, prompt)` with the flow's log messages and outcome. When
      the setup fails, the task was already marked running, but no step 0 is
      logged and the flow never runs, so its messages are not delivered. */
  function RunTask(m: Manager, id: TaskId, prompt: string, logs: seq<LogHandler.Message>, outcome: FlowOutcome): (r: Manager)
    requires Valid(m)
    ensures Valid(r)
    ensures id !in m.tasks ==> r == m
    ensures r.tasks.Keys == m.tasks.Keys && r.order == m.order
    ensures forall k :: k != id && k in m.tasks ==> r.tasks[k] == m.tasks[k] && r.queues[k] == m.queues[k]
  {
    if id !in m.tasks then m
    else if outcome.SetupFailed? then Finish(StartTask(m, id), id, outcome)
    else Finish(Prepare(m, id, prompt, logs), id, outcome)
  }

  // ---------------------------------------------------------------------

  /** The calls a single message produces: none or one. */
  function CallsOf(c: Option<LogHandler.Call>): seq<LogHandler.Call> {
    if c.Some? then [c.value] else []
  }

  lemma StepsOfAppend(a: seq<LogHandler.Call>, b: seq<LogHandler.Call>)
    ensures StepsOf(a + b) == StepsOf(a) + StepsOf(b)
  {
    Text.MapAppend(StepOf, a, b);
  }

  lemma DeliverStep(m: Manager, id: TaskId, counter: int, msg: LogHandler.Message)
    requires Valid(m) && id in m.tasks
    ensures var d := LogHandler.Deliver(m, id, counter, msg); var h := LogHandler.Handle(counter, msg);
      && id in d.0.tasks
      && d.0.tasks[id].steps == m.tasks[id].steps + StepsOf(CallsOf(h.call))
      && d.0.tasks[id].status == m.tasks[id].status
      && d.1 == h.counter
  {
    var h := LogHandler.Handle(counter, msg);
    if h.call.Some? {
      assert StepsOf(CallsOf(h.call)) == [StepOf(h.call.value)];
    }
  }

  /** Delivering messages adds, for each message the handler numbers, one
      step with that number, content and kind, leaves the status alone, and
      advances the counter as the handler does. */
  lemma {:induction false} DeliverAllSteps(m: Manager, id: TaskId, counter: int, msgs: seq<LogHandler.Message>)
    requires Valid(m) && id in m.tasks
    ensures var r := DeliverAll(m, id, counter, msgs); var h := LogHandler.HandleAll(counter, msgs);
      && r.0.tasks[id].steps == m.tasks[id].steps + StepsOf(h.1)
      && r.0.tasks[id].status == m.tasks[id].status
      && r.1 == h.0
    decreases |msgs|
  {
    if msgs == [] {
      assert StepsOf([]) == [];
      assert m.tasks[id].steps + [] == m.tasks[id].steps;
    } else {
      var d := LogHandler.Deliver(m, id, counter, msgs[0]);
      var h := LogHandler.Handle(counter, msgs[0]);
      DeliverStep(m, id, counter, msgs[0]);
      assert DeliverAll(m, id, counter, msgs) == DeliverAll(d.0, id, d.1, msgs[1..]);
      DeliverAllSteps(d.0, id, d.1, msgs[1..]);
      var rest := LogHandler.HandleAll(h.counter, msgs[1..]);
      var x := CallsOf(h.call);
      assert LogHandler.HandleAll(counter, msgs) == (rest.0, x + rest.1);
      StepsOfAppend(x, rest.1);
      Text.AppendAssoc(m.tasks[id].steps, StepsOf(x), StepsOf(rest.1));
    }
  }

  lemma FinishSpec(m: Manager, id: TaskId, outcome: FlowOutcome)
    requires Valid(m) && id in m.tasks
    ensures var r := Finish(m, id, outcome); var q := r.queues[id];
      && id in r.tasks
      && r.tasks[id].status == FinalStatus(outcome)
      && |q| > |m.queues[id]| && q[|q| - 1] == FinalEvent(outcome)
      && r.tasks[id].steps == m.tasks[id].steps
           + (if outcome.Finished? then [Step(ResultStep, outcome.result, "result")] else [])
  {
    if outcome.Finished? {
      var m4 := UpdateTaskStep(m, id, ResultStep, outcome.result, "result");
      assert Finish(m, id, outcome) == CompleteTask(m4, id);
    } else {
      assert m.tasks[id].steps + [] == m.tasks[id].steps;
    }
  }

  /** Before the outcome: the task is running, its steps are the start
      notice and then one step per log message the handler numbers, and its
      queue has only grown. */
  lemma PrepareSpec(m: Manager, id: TaskId, prompt: string, logs: seq<LogHandler.Message>)
    requires Valid(m) && id in m.tasks
    ensures var r := Prepare(m, id, prompt, logs);
      && r.tasks[id].status == Running
      && r.tasks[id].steps == m.tasks[id].steps + [Step(0, StartingPrefix + prompt, "log")]
           + StepsOf(LogHandler.HandleAll(0, logs).1)
      && |r.queues[id]| >= |m.queues[id]|
  {
    var m1 := StartTask(m, id);
    var m2 := UpdateTaskStep(m1, id, 0, StartingPrefix + prompt, "log");
    DeliverAllSteps(m2, id, 0, logs);
    DeliverAllQueueGrows(m2, id, 0, logs);
  }

  /** The end of a run: a finished flow leaves the task completed and the
      end marker last in its queue; a timeout, an exception or a failed
      setup leaves it failed with the matching message and an error event
      last. */
  lemma RunTaskEnds(m: Manager, id: TaskId, prompt: string, logs: seq<LogHandler.Message>, outcome: FlowOutcome)
    requires Valid(m) && id in m.tasks
    ensures var r := RunTask(m, id, prompt, logs, outcome); var q := r.queues[id];
      && r.tasks[id].status == FinalStatus(outcome)
      && |q| > |m.queues[id]| && q[|q| - 1] == FinalEvent(outcome)
  {
    if outcome.SetupFailed? {
      FinishSpec(StartTask(m, id), id, outcome);
    } else {
      PrepareSpec(m, id, prompt, logs);
      FinishSpec(Prepare(m, id, prompt, logs), id, outcome);
    }
  }

  /** The steps of a run: the start notice as step 0, then one step per log
      message the handler numbers, then, for a finished flow, its result as
      step 999. A failed setup adds no step at all. */
  lemma RunTaskSteps(m: Manager, id: TaskId, prompt: string, logs: seq<LogHandler.Message>, outcome: FlowOutcome)
    requires Valid(m) && id in m.tasks
    ensures var steps := RunTask(m, id, prompt, logs, outcome).tasks[id].steps;
      !outcome.SetupFailed? ==>
        steps == m.tasks[id].steps + [Step(0, StartingPrefix + prompt, "log")]
          + StepsOf(LogHandler.HandleAll(0, logs).1)
          + (if outcome.Finished? then [Step(ResultStep, outcome.result, "result")] else [])
    ensures outcome.SetupFailed? ==> RunTask(m, id, prompt, logs, outcome).tasks[id].steps == m.tasks[id].steps
  {
    if outcome.SetupFailed? {
      FinishSpec(StartTask(m, id), id, outcome);
    } else {
      PrepareSpec(m, id, prompt, logs);
      FinishSpec(Prepare(m, id, prompt, logs), id, outcome);
    }
  }

  /** A failed setup (the outer `except` of `run_task`): the task, already
      marked running, fails with "Error in task setup: " and the message,
      keeps its steps, and gains exactly one queued event, the error; the
      start notice is never queued. */
  lemma SetupFailureSpec(m: Manager, id: TaskId, prompt: string, logs: seq<LogHandler.Message>, e: string)
    requires Valid(m) && id in m.tasks
    ensures var r := RunTask(m, id, prompt, logs, SetupFailed(e));
      && r.tasks[id] == m.tasks[id].(status := FailedPrefix + SetupFailedPrefix + e)
      && r.queues[id] == m.queues[id] + [ErrorEvent(SetupFailedPrefix + e)]
  {
  }

  lemma {:induction false} DeliverAllQueueGrows(m: Manager, id: TaskId, counter: int, msgs: seq<LogHandler.Message>)
    requires Valid(m) && id in m.tasks
    ensures |DeliverAll(m, id, counter, msgs).0.queues[id]| >= |m.queues[id]|
    decreases |msgs|
  {
    if msgs != [] {
      var d := LogHandler.Deliver(m, id, counter, msgs[0]);
      DeliverAllQueueGrows(d.0, id, d.1, msgs[1..]);
    }
  }

  // ---------------------------------------------------------------------
  // A failed run never queues an event of type "complete".

  predicate NoEndMarker(q: seq<Event>) {
    forall i :: 0 <= i < |q| ==> q[i].Type() != "complete"
  }

  /** A message that does not itself ask for a step of type "complete". */
  predicate Ordinary(msg: LogHandler.Message) {
    !(msg.Record? && msg.kind == Some("complete"))
  }

  lemma NoEndMarkerAppend(q: seq<Event>, extra: seq<Event>)
    requires NoEndMarker(q) && NoEndMarker(extra)
    ensures NoEndMarker(q + extra)
  {
    forall i | 0 <= i < |q + extra| ensures (q + extra)[i].Type() != "complete" {
      if i < |q| { assert (q + extra)[i] == q[i]; } else { assert (q + extra)[i] == extra[i - |q|]; }
    }
  }

  /** A step of another type queues nothing of type "complete". */
  lemma UpdateKeepsNoEndMarker(m: Manager, id: TaskId, step: int, result: string, kind: string)
    requires Valid(m) && id in m.tasks && NoEndMarker(m.queues[id]) && kind != "complete"
    ensures NoEndMarker(UpdateTaskStep(m, id, step, result, kind).queues[id])
  {
    var t := m.tasks[id];
    var extra := [StepEvent(kind, step, result), StatusEvent(t.status, t.steps + [Step(step, result, kind)])];
    assert NoEndMarker(extra);
    NoEndMarkerAppend(m.queues[id], extra);
  }

  lemma DeliverKeepsNoEndMarker(m: Manager, id: TaskId, counter: int, msg: LogHandler.Message)
    requires Valid(m) && id in m.tasks && NoEndMarker(m.queues[id]) && Ordinary(msg)
    ensures NoEndMarker(LogHandler.Deliver(m, id, counter, msg).0.queues[id])
  {
    var h := LogHandler.Handle(counter, msg);
    if h.call.Some? {
      var c := h.call.value;
      assert c.Kind() != "complete" by {
        if c.LineCall? {
          var k := LogHandler.Classify(LogHandler.Clean(c.line));
          LogHandler.NameIsNotComplete(k);
        }
      }
      UpdateKeepsNoEndMarker(m, id, c.step, c.Result(), c.Kind());
    }
  }

  lemma {:induction false} DeliverAllKeepsNoEndMarker(m: Manager, id: TaskId, counter: int, msgs: seq<LogHandler.Message>)
    requires Valid(m) && id in m.tasks && NoEndMarker(m.queues[id])
    requires forall i :: 0 <= i < |msgs| ==> Ordinary(msgs[i])
    ensures NoEndMarker(DeliverAll(m, id, counter, msgs).0.queues[id])
    decreases |msgs|
  {
    if msgs != [] {
      DeliverKeepsNoEndMarker(m, id, counter, msgs[0]);
      var d := LogHandler.Deliver(m, id, counter, msgs[0]);
      assert forall i :: 0 <= i < |msgs[1..]| ==> msgs[1..][i] == msgs[i + 1];
      DeliverAllKeepsNoEndMarker(d.0, id, d.1, msgs[1..]);
    }
  }

  lemma PrepareKeepsNoEndMarker(m: Manager, id: TaskId, prompt: string, logs: seq<LogHandler.Message>)
    requires Valid(m) && id in m.tasks && NoEndMarker(m.queues[id])
    requires forall i :: 0 <= i < |logs| ==> Ordinary(logs[i])
    ensures NoEndMarker(Prepare(m, id, prompt, logs).queues[id])
  {
    var m1 := StartTask(m, id);
    UpdateKeepsNoEndMarker(m1, id, 0, StartingPrefix + prompt, "log");
    DeliverAllKeepsNoEndMarker(UpdateTaskStep(m1, id, 0, StartingPrefix + prompt, "log"), id, 0, logs);
  }

  lemma FailKeepsNoEndMarker(m: Manager, id: TaskId, outcome: FlowOutcome)
    requires Valid(m) && id in m.tasks && NoEndMarker(m.queues[id]) && !outcome.Finished?
    ensures NoEndMarker(Finish(m, id, outcome).queues[id])
  {
    var error := match outcome
      case TimedOut => TimeoutMessage
      case Raised(e) => ExecutionFailedPrefix + e
      case SetupFailed(e) => SetupFailedPrefix + e;
    assert Finish(m, id, outcome) == FailTask(m, id, error);
    NoEndMarkerAppend(m.queues[id], [ErrorEvent(error)]);
  }

  /** When the flow times out or raises, or the setup fails, the task's
      queue never holds an event of type "complete", so its event stream
      does not end by itself: it sends the error event and then heartbeats
      until the client leaves. */
  lemma FailedRunNeverEnds(m: Manager, id: TaskId, prompt: string, logs: seq<LogHandler.Message>, outcome: FlowOutcome)
    requires Valid(m) && id in m.tasks && NoEndMarker(m.queues[id])
    requires forall i :: 0 <= i < |logs| ==> Ordinary(logs[i])
    requires !outcome.Finished?
    ensures NoEndMarker(RunTask(m, id, prompt, logs, outcome).queues[id])
  {
    if outcome.SetupFailed? {
      FailKeepsNoEndMarker(StartTask(m, id), id, outcome);
    } else {
      PrepareKeepsNoEndMarker(m, id, prompt, logs);
      FailKeepsNoEndMarker(Prepare(m, id, prompt, logs), id, outcome);
    }
  }
}

=== FILE: tasks.dfy ===
/** The server's task registry (`TaskManager` in app.py): a map of tasks and,
    per task, the queue of events that the event stream will send.

    Task ids (`uuid4`) and creation times (`datetime.now`) come from outside
    and are parameters here; a creation time is a number of microseconds. A
    queue is the sequence of events put into it, oldest first. */
module Tasks {

  import opened Wrappers
  import opened Text

  type TaskId = string

  /** One `{step, result, type}` record of a task. */
  datatype Step = Step(step: int, result: string, kind: string)

  datatype Task = Task(id: TaskId, prompt: string, createdAt: int, status: string, steps: seq<Step>)

  /** The dictionaries put on a task's queue. */
  datatype Event =
    | StepEvent(kind: string, step: int, result: string)
    | StatusEvent(status: string, steps: seq<Step>)
    | CompleteEvent
    | ErrorEvent(message: string)
  {
    /** The value under the dictionary's "type" key. */
    function Type(): string {
      match this
      case StepEvent(kind, _, _) => kind
      case StatusEvent(_, _) => "status"
      case CompleteEvent => "complete"
      case ErrorEvent(_) => "error"
    }
  }

  /** `tasks` and `queues` are the two dictionaries; `order` is the order in
      which task ids were first inserted, which is the order in which
      `tasks.values()` yields them. */
  datatype Manager = Manager(tasks: map<TaskId, Task>, queues: map<TaskId, seq<Event>>, order: seq<TaskId>)

  const Pending := "pending"
  const Running := "running"
  const Completed := "completed"
  const FailedPrefix := "failed: "

  /** The invariant every operation of the manager keeps: every task has a
      queue and a place in the insertion order, and is stored under its id. */
  predicate Valid(m: Manager) {
    && m.tasks.Keys == m.queues.Keys
    && Distinct(m.order)
    && (forall k :: k in m.tasks ==> k in m.order)
    && (forall i :: 0 <= i < |m.order| ==> m.order[i] in m.tasks)
    && (forall k :: k in m.tasks ==> m.tasks[k].id == k)
  }

  function Empty(): (m: Manager)
    ensures Valid(m) && m.tasks == map[]
  {
    Manager(map[], map[], [])
  }

  /** `create_task`: a pending task with no steps and an empty queue. */
  function CreateTask(m: Manager, id: TaskId, prompt: string, now: int): (r: Manager)
    ensures id in r.tasks && id in r.queues
    ensures r.tasks[id] == Task(id, prompt, now, Pending, [])
    ensures r.queues[id] == []
    ensures forall k :: k != id ==> (k in r.tasks <==> k in m.tasks) && (k in r.queues <==> k in m.queues)
    ensures forall k :: k != id && k in m.tasks ==> r.tasks[k] == m.tasks[k]
    ensures forall k :: k != id && k in m.queues ==> r.queues[k] == m.queues[k]
    ensures Valid(m) ==> Valid(r)
    ensures Valid(m) && id !in m.tasks ==> |r.tasks| == |m.tasks| + 1
  {
    var order := if id in m.order then m.order else m.order + [id];
    Manager(m.tasks[id := Task(id, prompt, now, Pending, [])], m.queues[id := []], order)
  }

  /** The first act of `run_task`: mark the task running. Nothing is queued,
      so a client already streaming keeps the status it was sent. An unknown
      id raises inside `run_task`'s outer `try`, whose handler fails the
      (absent) task, which changes nothing. */
  function StartTask(m: Manager, id: TaskId): (r: Manager)
    requires Valid(m)
    ensures Valid(r)
    ensures id !in m.tasks ==> r == m
    ensures id in m.tasks ==>
      && r.tasks == m.tasks[id := m.tasks[id].(status := Running)]
      && r.queues == m.queues && r.order == m.order
  {
    if id in m.tasks then m.(tasks := m.tasks[id := m.tasks[id].(status := Running)]) else m
  }

  /** `update_task_step`: record a step, then queue the step and a status snapshot. */
  function UpdateTaskStep(m: Manager, id: TaskId, step: int, result: string, kind: string): (r: Manager)
    requires Valid(m)
    ensures Valid(r)
    ensures id !in m.tasks ==> r == m
    ensures id in m.tasks ==>
      var t := m.tasks[id];
      && r.tasks == m.tasks[id := t.(steps := t.steps + [Step(step, result, kind)])]
      && r.queues == m.queues[id := m.queues[id] + [StepEvent(kind, step, result), StatusEvent(t.status, r.tasks[id].steps)]]
      && r.order == m.order
  {
    if id in m.tasks then
      var t := m.tasks[id];
      var t' := t.(steps := t.steps + [Step(step, result, kind)]);
      var q := m.queues[id] + [StepEvent(kind, step, result), StatusEvent(t'.status, t'.steps)];
      m.(tasks := m.tasks[id := t'], queues := m.queues[id := q])
    else m
  }

  /** `complete_task`: mark completed, then queue a status snapshot and the end marker. */
  function CompleteTask(m: Manager, id: TaskId): (r: Manager)
    requires Valid(m)
    ensures Valid(r)
    ensures id !in m.tasks ==> r == m
    ensures id in m.tasks ==>
      var t := m.tasks[id];
      && r.tasks == m.tasks[id := t.(status := Completed)]
      && r.queues == m.queues[id := m.queues[id] + [StatusEvent(Completed, t.steps), CompleteEvent]]
      && r.order == m.order
  {
    if id in m.tasks then
      var t := m.tasks[id].(status := Completed);
      var q := m.queues[id] + [StatusEvent(t.status, t.steps), CompleteEvent];
      m.(tasks := m.tasks[id := t], queues := m.queues[id := q])
    else m
  }

  /** `fail_task`: mark failed with the error, then queue one error event. */
  function FailTask(m: Manager, id: TaskId, error: string): (r: Manager)
    requires Valid(m)
    ensures Valid(r)
    ensures id !in m.tasks ==> r == m
    ensures id in m.tasks ==>
      var t := m.tasks[id];
      && r.tasks == m.tasks[id := t.(status := FailedPrefix + error)]
      && r.queues == m.queues[id := m.queues[id] + [ErrorEvent(error)]]
      && r.order == m.order
  {
    if id in m.tasks then
      var t := m.tasks[id].(status := FailedPrefix + error);
      m.(tasks := m.tasks[id := t], queues := m.queues[id := m.queues[id] + [ErrorEvent(error)]])
    else m
  }

  /** `get_task`: the stored task, or 404 when the id is unknown. */
  function GetTask(m: Manager, id: TaskId): (r: Result<Task, int>)
    ensures r.Ok? <==> id in m.tasks
    ensures r.Ok? ==> r.value == m.tasks[id]
    ensures r.Err? ==> r.error == 404
  {
    if id in m.tasks then Ok(m.tasks[id]) else Err(404)
  }

  /** A step for one task changes no other task and no other queue. */
  lemma UpdateTouchesOnly(m: Manager, id: TaskId, step: int, result: string, kind: string)
    requires Valid(m)
    ensures var r := UpdateTaskStep(m, id, step, result, kind);
      && r.tasks.Keys == m.tasks.Keys && r.order == m.order
      && forall k :: k != id && k in m.tasks ==> r.tasks[k] == m.tasks[k] && r.queues[k] == m.queues[k]
  {
  }

  /** Reading back what the writers stored: a created task is found pending
      and empty, and no other id's answer changes. */
  lemma GetAfterCreate(m: Manager, id: TaskId, prompt: string, now: int, other: TaskId)
    ensures GetTask(CreateTask(m, id, prompt, now), id) == Ok(Task(id, prompt, now, Pending, []))
    ensures other != id ==> GetTask(CreateTask(m, id, prompt, now), other) == GetTask(m, other)
  {
  }

  /** A recorded step is the last step read back, after the ones before it,
      and the status read back is unchanged; no other id's answer changes. */
  lemma GetAfterUpdate(m: Manager, id: TaskId, step: int, result: string, kind: string, other: TaskId)
    requires Valid(m) && id in m.tasks
    ensures var r := GetTask(UpdateTaskStep(m, id, step, result, kind), id);
      && r.Ok? && r.value.steps == GetTask(m, id).value.steps + [Step(step, result, kind)]
      && r.value.status == GetTask(m, id).value.status
    ensures other != id ==> GetTask(UpdateTaskStep(m, id, step, result, kind), other) == GetTask(m, other)
  {
  }

  /** The final status read back after completing or failing a task, with its
      steps unchanged. */
  lemma GetAfterFinish(m: Manager, id: TaskId, error: string)
    requires Valid(m) && id in m.tasks
    ensures GetTask(CompleteTask(m, id), id) == Ok(m.tasks[id].(status := Completed))
    ensures GetTask(FailTask(m, id, error), id) == Ok(m.tasks[id].(status := FailedPrefix + error))
  {
  }

  // ---------------------------------------------------------------------
  // Queue discipline.

  /** A queue that the manager's operations can have produced: every step
      event is followed by a status event whose last step is that step, and
      every end marker is preceded by a "completed" status event. */
  predicate WellFormedQueue(q: seq<Event>) {
    && (forall i :: 0 <= i < |q| && q[i].StepEvent? ==>
          i + 1 < |q| && q[i + 1].StatusEvent? && |q[i + 1].steps| > 0
          && q[i + 1].steps[|q[i + 1].steps| - 1] == Step(q[i].step, q[i].result, q[i].kind))
    && (forall i :: 0 <= i < |q| && q[i].CompleteEvent? ==>
          i > 0 && q[i - 1].StatusEvent? && q[i - 1].status == Completed)
  }

  predicate WellFormedQueues(m: Manager) {
    forall k :: k in m.queues ==> WellFormedQueue(m.queues[k])
  }

  lemma AppendWellFormed(q: seq<Event>, extra: seq<Event>)
    requires WellFormedQueue(q) && WellFormedQueue(extra)
    ensures WellFormedQueue(q + extra)
  {
    var r := q + extra;
    forall i | 0 <= i < |r| && r[i].StepEvent?
      ensures i + 1 < |r| && r[i + 1].StatusEvent?
    {
      if i < |q| { assert r[i] == q[i] && r[i + 1] == q[i + 1]; }
      else { assert r[i] == extra[i - |q|] && r[i + 1] == extra[i + 1 - |q|]; }
    }
    forall i | 0 <= i < |r| && r[i].CompleteEvent?
      ensures i > 0 && r[i - 1].StatusEvent? && r[i - 1].status == Completed
    {
      if i < |q| { assert r[i] == q[i] && r[i - 1] == q[i - 1]; }
      else { assert r[i] == extra[i - |q|] && r[i - 1] == extra[i - 1 - |q|]; }
    }
  }

  /** Every operation of the manager keeps every queue well formed: in each
      queue a step event is followed by the status that contains it, and the
      end marker comes right after a "completed" status. A stream that takes
      events off the queue and is then cancelled can leave a queue that is
      no longer well formed; that is a property of the stream, not of these
      operations. */
  lemma CreateKeepsQueuesWellFormed(m: Manager, id: TaskId, prompt: string, now: int)
    requires WellFormedQueues(m)
    ensures WellFormedQueues(CreateTask(m, id, prompt, now))
  {
    var r := CreateTask(m, id, prompt, now);
    forall k | k in r.queues ensures WellFormedQueue(r.queues[k]) {
      if k != id { assert r.queues[k] == m.queues[k]; }
    }
  }

  lemma UpdateKeepsQueuesWellFormed(m: Manager, id: TaskId, step: int, result: string, kind: string)
    requires Valid(m) && WellFormedQueues(m)
    ensures WellFormedQueues(UpdateTaskStep(m, id, step, result, kind))
  {
    if id in m.tasks {
      var t := m.tasks[id];
      var steps' := t.steps + [Step(step, result, kind)];
      var u := [StepEvent(kind, step, result), StatusEvent(t.status, steps')];
      assert steps'[|steps'| - 1] == Step(step, result, kind);
      assert WellFormedQueue(u);
      AppendWellFormed(m.queues[id], u);
    }
  }

  lemma CompleteKeepsQueuesWellFormed(m: Manager, id: TaskId)
    requires Valid(m) && WellFormedQueues(m)
    ensures WellFormedQueues(CompleteTask(m, id))
  {
    if id in m.tasks {
      var u := [StatusEvent(Completed, m.tasks[id].steps), CompleteEvent];
      assert WellFormedQueue(u);
      AppendWellFormed(m.queues[id], u);
    }
  }

  lemma FailKeepsQueuesWellFormed(m: Manager, id: TaskId, error: string)
    requires Valid(m) && WellFormedQueues(m)
    ensures WellFormedQueues(FailTask(m, id, error))
  {
    if id in m.tasks {
      AppendWellFormed(m.queues[id], [ErrorEvent(error)]);
    }
  }

  /** Only `complete_task` ever queues the end marker; a failed task's queue
      gains an error event and no end marker. */
  lemma FailNeverCompletes(m: Manager, id: TaskId, error: string)
    requires Valid(m) && id in m.tasks
    requires forall i :: 0 <= i < |m.queues[id]| ==> m.queues[id][i] != CompleteEvent
    ensures var q := FailTask(m, id, error).queues[id];
      && q[|q| - 1] == ErrorEvent(error)
      && forall i :: 0 <= i < |q| ==> q[i] != CompleteEvent
  {
  }

  // ---------------------------------------------------------------------
  // `get_tasks`: every task, newest first, ties in insertion order.

  /** The tasks in dictionary (insertion) order. */
  function Values(m: Manager): (r: seq<Task>)
    requires Valid(m)
    ensures |r| == |m.order|
    ensures forall i :: 0 <= i < |r| ==> r[i] == m.tasks[m.order[i]]
  {
    seq(|m.order|, i requires 0 <= i < |m.order| => m.tasks[m.order[i]])
  }

  predicate NewestFirst(s: seq<Task>) {
    forall i, j :: 0 <= i < j < |s| ==> s[i].createdAt >= s[j].createdAt
  }

  /** The tasks of `s` created at time `t`, in their order in `s`. */
  function CreatedAt(s: seq<Task>, t: int): (r: seq<Task>)
  {
    if s == [] then []
    else (if s[0].createdAt == t then [s[0]] else []) + CreatedAt(s[1..], t)
  }

  /** Places `x` before the first task not newer than it. */
  function Insert(x: Task, s: seq<Task>): (r: seq<Task>)
    ensures multiset(r) == multiset(s) + multiset{x}
    ensures forall i :: 0 <= i < |r| ==> r[i] == x || r[i] in s
  {
    if s == [] || s[0].createdAt <= x.createdAt then [x] + s
    else
      assert s == [s[0]] + s[1..];
      [s[0]] + Insert(x, s[1..])
  }

  lemma {:induction false} InsertKeepsOrder(x: Task, s: seq<Task>)
    requires NewestFirst(s)
    ensures NewestFirst(Insert(x, s))
    decreases |s|
  {
    if s != [] && s[0].createdAt > x.createdAt {
      var tail := Insert(x, s[1..]);
      InsertKeepsOrder(x, s[1..]);
      forall j | 0 <= j < |tail| ensures tail[j].createdAt <= s[0].createdAt {
        if tail[j] != x {
          var k :| 0 <= k < |s[1..]| && s[1..][k] == tail[j];
          assert s[k + 1] == tail[j];
        }
      }
      var r := [s[0]] + tail;
      forall i, j | 0 <= i < j < |r| ensures r[i].createdAt >= r[j].createdAt {
        if i > 0 { assert r[i] == tail[i - 1] && r[j] == tail[j - 1]; }
        else { assert r[j] == tail[j - 1]; }
      }
    }
  }

  /** Python's `sorted(key=created_at, reverse=True)`, which is stable. */
  function SortNewestFirst(s: seq<Task>): (r: seq<Task>)
    ensures multiset(r) == multiset(s)
    ensures NewestFirst(r)
  {
    if s == [] then []
    else
      assert s == [s[0]] + s[1..];
      InsertKeepsOrder(s[0], SortNewestFirst(s[1..]));
      Insert(s[0], SortNewestFirst(s[1..]))
  }

  lemma CreatedAtCons(y: Task, s: seq<Task>, t: int)
    ensures CreatedAt([y] + s, t) == (if y.createdAt == t then [y] else []) + CreatedAt(s, t)
  {
    assert ([y] + s)[1..] == s;
  }

  lemma {:induction false} InsertKeepsTies(x: Task, s: seq<Task>, t: int)
    ensures CreatedAt(Insert(x, s), t) == (if x.createdAt == t then [x] else []) + CreatedAt(s, t)
    decreases |s|
  {
    if s == [] || s[0].createdAt <= x.createdAt {
      CreatedAtCons(x, s, t);
    } else {
      var tail := Insert(x, s[1..]);
      InsertKeepsTies(x, s[1..], t);
      CreatedAtCons(s[0], tail, t);
      CreatedAtCons(s[0], s[1..], t);
      assert s == [s[0]] + s[1..];
      var c := CreatedAt(s[1..], t);
      if s[0].createdAt == t {
        assert CreatedAt(tail, t) == c;
      } else {
        assert CreatedAt([s[0]] + tail, t) == CreatedAt(tail, t);
      }
    }
  }

  /** The sort is stable: tasks created at the same time keep their relative order. */
  lemma {:induction false} SortIsStable(s: seq<Task>, t: int)
    ensures CreatedAt(SortNewestFirst(s), t) == CreatedAt(s, t)
    decreases |s|
  {
    if s != [] {
      SortIsStable(s[1..], t);
      InsertKeepsTies(s[0], SortNewestFirst(s[1..]), t);
    }
  }

  function ListTasks(m: Manager): (r: seq<Task>)
    requires Valid(m)
  {
    SortNewestFirst(Values(m))
  }

  /** `get_tasks` returns every registered task exactly once, newest first,
      and tasks created at the same instant in insertion order. */
  lemma ListTasksSpec(m: Manager)
    requires Valid(m)
    ensures multiset(ListTasks(m)) == multiset(Values(m))
    ensures |ListTasks(m)| == |m.tasks|
    ensures forall k :: k in m.tasks ==> m.tasks[k] in ListTasks(m)
    ensures NewestFirst(ListTasks(m))
    ensures forall t :: CreatedAt(ListTasks(m), t) == CreatedAt(Values(m), t)
  {
    var v := Values(m);
    var r := ListTasks(m);
    assert |multiset(r)| == |multiset(v)|;
    DistinctKeysCount(m);
    forall k | k in m.tasks
      ensures m.tasks[k] in r
    {
      var i :| 0 <= i < |m.order| && m.order[i] == k;
      assert v[i] == m.tasks[k];
      assert m.tasks[k] in multiset(v);
    }
    forall t ensures CreatedAt(r, t) == CreatedAt(v, t) {
      SortIsStable(v, t);
    }
  }

  lemma DistinctKeysCount(m: Manager)
    requires Valid(m)
    ensures |m.tasks| == |m.order|
  {
    DistinctCard(m.order);
    assert m.tasks.Keys == set k | k in m.order;
  }

  lemma {:induction false} DistinctCard<T>(s: seq<T>)
    requires Distinct(s)
    ensures |set k | k in s| == |s|
  {
    if s != [] {
      DistinctCard(s[1..]);
      var rest := set k | k in s[1..];
      assert (set k | k in s) == rest + {s[0]};
      assert s[0] !in rest;
    }
  }
}

=== FILE: text.dfy ===
/** Character classes and string operations shared by the server and the page.

    Python's `\w`, `\d` and `str.lower()` are Unicode-aware; here they are
    approximated by their ASCII restriction. Python's `str.strip()` and
    JavaScript's `String.prototype.trim()` are modelled exactly: each with its
    own whitespace set. */
module Text {

  import opened Wrappers

  /** Regrouping a concatenation (stated once, to keep the solver off it elsewhere). */
  lemma AppendAssoc<T>(a: seq<T>, b: seq<T>, c: seq<T>)
    ensures (a + b) + c == a + (b + c)
  {
  }

  /** `f` applied to each element of `s`, in order. */
  function Map<A, B>(f: A -> B, s: seq<A>): (r: seq<B>)
    ensures |r| == |s|
    ensures forall i :: 0 <= i < |s| ==> r[i] == f(s[i])
  {
    seq(|s|, i requires 0 <= i < |s| => f(s[i]))
  }

  lemma MapAppend<A, B>(f: A -> B, a: seq<A>, b: seq<A>)
    ensures Map(f, a + b) == Map(f, a) + Map(f, b)
  {
  }

  /** No element occurs twice. */
  predicate Distinct<T(==)>(s: seq<T>) {
    forall i, j :: 0 <= i < j < |s| ==> s[i] != s[j]
  }

  predicate IsDigit(c: char) { '0' <= c <= '9' }

  /** `\w` restricted to ASCII. */
  predicate IsWordChar(c: char) {
    'a' <= c <= 'z' || 'A' <= c <= 'Z' || IsDigit(c) || c == '_'
  }

  predicate AllOf(s: string, p: char -> bool) {
    forall i :: 0 <= i < |s| ==> p(s[i])
  }

  /** `str.lower()` restricted to ASCII letters. */
  function LowerChar(c: char): char {
    if 'A' <= c <= 'Z' then (c as int + 32) as char else c
  }

  function Lower(s: string): (r: string)
    ensures |r| == |s|
    ensures forall i :: 0 <= i < |s| ==> r[i] == LowerChar(s[i])
  {
    seq(|s|, i requires 0 <= i < |s| => LowerChar(s[i]))
  }

  // ---------------------------------------------------------------------
  // Substring search: Python's `p in s` and the position of its first match.

  predicate OccursAt(s: string, p: string, i: nat) {
    i + |p| <= |s| && s[i..i + |p|] == p
  }

  /** Python's `p in s`. */
  predicate Contains(s: string, p: string) {
    exists i: nat :: i + |p| <= |s| && OccursAt(s, p, i)
  }

  /** Every character of a pattern found in `s` is a character of `s`. */
  lemma ContainsHasChar(s: string, p: string, k: nat)
    requires Contains(s, p) && k < |p|
    ensures p[k] in s
  {
    var i: nat :| i + |p| <= |s| && OccursAt(s, p, i);
    assert s[i..i + |p|][k] == s[i + k];
  }

  /** A character of the lowered string comes from itself or its capital. */
  lemma InLower(s: string, c: char)
    requires c in Lower(s)
    ensures c in s || ('a' <= c <= 'z' && (c as int - 32) as char in s)
  {
    var i :| 0 <= i < |s| && Lower(s)[i] == c;
    assert s[i] in s;
  }

  /** The leftmost position at or after `from` where `p` occurs. */
  function FindFrom(s: string, p: string, from: nat): (r: Option<nat>)
    requires from <= |s|
    ensures r.Some? ==> from <= r.value && OccursAt(s, p, r.value)
    ensures r.Some? ==> forall j: nat :: from <= j < r.value ==> !OccursAt(s, p, j)
    ensures r.None? ==> forall j: nat :: from <= j ==> !OccursAt(s, p, j)
    decreases |s| - from
  {
    if OccursAt(s, p, from) then Some(from)
    else if from == |s| then None
    else FindFrom(s, p, from + 1)
  }

  /** The leftmost occurrence of `p` in `s`, which exists exactly when `p in s`. */
  function Find(s: string, p: string): (r: Option<nat>)
    ensures r.Some? <==> Contains(s, p)
    ensures r.Some? ==> OccursAt(s, p, r.value)
    ensures r.Some? ==> forall j: nat :: j < r.value ==> !OccursAt(s, p, j)
  {
    FindFrom(s, p, 0)
  }

  // ---------------------------------------------------------------------
  // Runs of characters from a class (the greedy part of a regex atom `x+`).

  predicate AllFrom(s: string, lo: nat, hi: nat, p: char -> bool)
    requires lo <= hi <= |s|
  {
    forall k :: lo <= k < hi ==> p(s[k])
  }

  lemma AllFromPrefix(s: string, n: nat, lo: nat, hi: nat, p: char -> bool)
    requires lo <= hi <= n <= |s|
    ensures AllFrom(s[..n], lo, hi, p) <==> AllFrom(s, lo, hi, p)
  {
    assert forall k :: lo <= k < hi ==> s[..n][k] == s[k];
  }

  /** The end of the longest run of characters satisfying `p` that starts at `from`. */
  function Run(s: string, from: nat, p: char -> bool): (n: nat)
    requires from <= |s|
    ensures from <= n <= |s|
    ensures AllFrom(s, from, n, p)
    ensures n < |s| ==> !p(s[n])
    decreases |s| - from
  {
    if from == |s| || !p(s[from]) then from else Run(s, from + 1, p)
  }

  /** A run is determined by where it stops: a stretch of class characters
      followed by a non-class character (or the end) is the run. */
  lemma RunUnique(s: string, from: nat, p: char -> bool, n: nat)
    requires from <= n <= |s|
    requires AllFrom(s, from, n, p)
    requires n < |s| ==> !p(s[n])
    ensures Run(s, from, p) == n
  {
  }

  // ---------------------------------------------------------------------
  // Whitespace and trimming.

  /** `str.isspace()` for one character. */
  predicate PyIsSpace(c: char) {
    c == ' ' || '\t' <= c <= '\r' || '\U{1c}' <= c <= '\U{1f}' || c == '\U{85}' || c == '\U{a0}'
    || c == '\U{1680}' || '\U{2000}' <= c <= '\U{200a}' || c == '\U{2028}' || c == '\U{2029}'
    || c == '\U{202f}' || c == '\U{205f}' || c == '\U{3000}'
  }

  /** The WhiteSpace and LineTerminator characters of ECMAScript. */
  predicate JsIsSpace(c: char) {
    c == ' ' || '\t' <= c <= '\r' || c == '\U{a0}' || c == '\U{feff}'
    || c == '\U{1680}' || '\U{2000}' <= c <= '\U{200a}' || c == '\U{2028}' || c == '\U{2029}'
    || c == '\U{202f}' || c == '\U{205f}' || c == '\U{3000}'
  }

  function TrimStart(s: string, space: char -> bool): (r: string)
    ensures |r| <= |s| && r == s[|s| - |r|..]
    ensures r == [] <==> AllOf(s, space)
    ensures r != [] ==> !space(r[0])
  {
    if |s| > 0 && space(s[0]) then TrimStart(s[1..], space) else s
  }

  function TrimEnd(s: string, space: char -> bool): (r: string)
    ensures |r| <= |s| && r == s[..|r|]
    ensures r == [] <==> AllOf(s, space)
    ensures r != [] ==> !space(r[|r| - 1])
  {
    if |s| > 0 && space(s[|s| - 1]) then TrimEnd(s[..|s| - 1], space) else s
  }

  /** Removes leading and trailing whitespace, as `strip()` and `trim()` do. */
  function Trim(s: string, space: char -> bool): (r: string)
  {
    TrimEnd(TrimStart(s, space), space)
  }

  /** A string trims to nothing exactly when every character is whitespace. */
  lemma TrimEmptyIffBlank(s: string, space: char -> bool)
    ensures Trim(s, space) == [] <==> AllOf(s, space)
  {
    var t := TrimStart(s, space);
    if t != [] {
      assert !space(t[0]);
      assert !AllOf(t, space);
    }
  }

  // ---------------------------------------------------------------------
  // Python's `str.split(sep)` with one separator character, and its inverse.

  function SplitFrom(cur: string, s: string, sep: char): (r: seq<string>)
    ensures |r| >= 1
    decreases |s|
  {
    if s == [] then [cur]
    else if s[0] == sep then [cur] + SplitFrom([], s[1..], sep)
    else SplitFrom(cur + [s[0]], s[1..], sep)
  }

  function Split(s: string, sep: char): (r: seq<string>)
    ensures |r| >= 1
  {
    SplitFrom([], s, sep)
  }

  function Join(parts: seq<string>, sep: char): string
  {
    if |parts| == 0 then []
    else if |parts| == 1 then parts[0]
    else parts[0] + [sep] + Join(parts[1..], sep)
  }

  lemma {:induction false} SplitFromJoin(cur: string, s: string, sep: char)
    ensures Join(SplitFrom(cur, s, sep), sep) == cur + s
    ensures sep !in cur ==> forall k :: 0 <= k < |SplitFrom(cur, s, sep)| ==> sep !in SplitFrom(cur, s, sep)[k]
    decreases |s|
  {
    if s == [] {
    } else if s[0] == sep {
      SplitFromJoin([], s[1..], sep);
      assert s == [sep] + s[1..];
    } else {
      SplitFromJoin(cur + [s[0]], s[1..], sep);
      assert cur + [s[0]] + s[1..] == cur + s;
    }
  }

  /** Splitting and re-joining gives the string back, and no piece holds the separator. */
  lemma SplitJoin(s: string, sep: char)
    ensures Join(Split(s, sep), sep) == s
    ensures forall k :: 0 <= k < |Split(s, sep)| ==> sep !in Split(s, sep)[k]
  {
    SplitFromJoin([], s, sep);
  }

  lemma {:induction false} SplitFromSkip(cur: string, p: string, s: string, sep: char)
    requires sep !in p
    ensures SplitFrom(cur, p + s, sep) == SplitFrom(cur + p, s, sep)
    decreases |p|
  {
    if p != [] {
      assert (p + s)[0] == p[0];
      assert (p + s)[1..] == p[1..] + s;
      SplitFromSkip(cur + [p[0]], p[1..], s, sep);
      assert cur + [p[0]] + p[1..] == cur + p;
    } else {
      assert p + s == s;
      assert cur + p == cur;
    }
  }

  /** Split is the exact inverse of Join on separator-free pieces. */
  lemma {:induction false} JoinSplit(parts: seq<string>, sep: char)
    requires |parts| >= 1
    requires forall k :: 0 <= k < |parts| ==> sep !in parts[k]
    ensures Split(Join(parts, sep), sep) == parts
    decreases |parts|
  {
    if |parts| == 1 {
      SplitFromSkip([], parts[0], [], sep);
      assert parts[0] + [] == parts[0];
      assert [] + parts[0] == parts[0];
      assert SplitFrom(parts[0], [], sep) == [parts[0]];
    } else {
      var rest := Join(parts[1..], sep);
      SplitFromSkip([], parts[0], [sep] + rest, sep);
      assert parts[0] + [sep] + rest == parts[0] + ([sep] + rest);
      assert ([sep] + rest)[1..] == rest;
      JoinSplit(parts[1..], sep);
      assert [] + parts[0] == parts[0];
      assert parts == [parts[0]] + parts[1..];
    }
  }

  // ---------------------------------------------------------------------
  // Decimal rendering of a number, as a JavaScript template literal does.

  function DigitChar(d: nat): char
    requires d < 10
  {
    ['0', '1', '2', '3', '4', '5', '6', '7', '8', '9'][d]
  }

  function NatToString(n: nat): (r: string)
    ensures |r| >= 1 && AllOf(r, IsDigit)
  {
    if n < 10 then [DigitChar(n)] else NatToString(n / 10) + [DigitChar(n % 10)]
  }
}

=== FILE: wrappers.dfy ===
/** Failure-carrying values used across the model: an absent value and an
    operation that either succeeds or reports an error. */
module Wrappers {

  datatype Option<+T> = None | Some(value: T)

  datatype Result<+T, +E> = Ok(value: T) | Err(error: E)
}
